=== FILE: README.md ===
# csv-importer-backend in Dafny

This project models the core of csv-importer-backend, a small Go REST service.
The service accepts a CSV upload and records an "event" for it. It lists the
stored events. It also ships a set of upload-safety helpers with its tests.

The model covers four parts:

- **Event records** (`event_model.dfy`, module `EventModel`).
  - The three event statuses and their string forms: `draft`, `start` and `end`.
  - The `Event` and `TodoEvent` rows.
  - The table name.
  - The `{message, data}` response envelope.
- **The two handlers** (`event_api.dfy`, module `EventApi`).
  - `listEvents` and `createEvent`, as methods of an `EventApi` class.
  - The class holds an `EventRepo` object. Its state is the list of stored events, plus the list of events handed to `CreateEvent`.
  - Collaborators are parameters: the multipart form, the CSV decoder, the UUID generator, the clock readings and the database's success or error.
  - Each failure path is stated with its status code, its message and the fact that nothing is stored.
- **Upload-safety helpers** (`security.dfy`, module `Security`, and `csv_content.dfy`, module `CsvContent`).
  - The filename check, the CSV extension check and the first-line content check, as predicates.
  - `sanitizeInput`, as a method looping over its pattern list.
  - `createCSVContent`, as a method appending rows to a builder.
  - The filename, file-type and sanitization test tables in `security_test.go` are stated as lemmas about these.
  - So is the size check of the upload-size table: the generated content is within 80% of the requested size.
- **The database connection string** (`dsn.dfy`, module `Dsn`).
  - The `fmt.Sprintf` in `main` that builds the connection string.
  - A simple reader that splits the string at spaces and each word at its first `=`. It is not the database driver's grammar.
  - That reader gets the configuration back exactly when no text field holds a space.

`gostrings.dfy` (module `GoStrings`) models the parts of Go's `strings` and
`fmt` packages the core uses:

- `Contains`, `HasPrefix` and `HasSuffix`;
- `ToLower` (ASCII only);
- `Split` and `Join` with a one-character separator;
- `LastIndex`;
- `ReplaceAll` with an empty replacement;
- the `%d` verb.

`wrappers.dfy` holds the `Option` and `Result` types. A Go `error` is modelled by its text.

## Model

| member | source | states |
|---|---|---|
| EventModel.StatusString | cmd/csv-importer/model/event.go:5-11 | Each status has a string form ("draft", "start", "end") of at least three characters, and parsing that form gives back the same status |
| EventModel.ParseStatusExact | cmd/csv-importer/model/event.go:7-11 | A string parses to a status exactly when it is that status's string form |
| EventModel.StatusStringInjective | cmd/csv-importer/model/event.go:7-11 | Two statuses with the same string form are the same status |
| EventModel.StatusStrings | cmd/csv-importer/model/event.go:7-11 | The only strings that name a status are "draft", "start" and "end" |
| EventModel.TableName | cmd/csv-importer/model/event.go:22-24 | Every event, whatever its fields, is stored in the table "events" |
| EventApi.EventRepo.ListEvents | cmd/csv-importer/apis/event.go:15-16 | The repository's select-all gives the stored rows in order, or the database's error text |
| EventApi.EventRepo.CreateEvent | cmd/csv-importer/apis/event.go:15-17 | An insert is recorded as a call; it appends the event when the database accepts it, and leaves the rows unchanged when the database refuses it, returning the error |
| EventApi.EventApi.constructor | cmd/csv-importer/apis/event.go:20-29 | NewEventAPI keeps the repository it is given |
| EventApi.EventApi.ListEvents | cmd/csv-importer/apis/event.go:36-57 | On a store error: status 500, the error text as message, no data. Otherwise: status 200, message "success" and the stored list unchanged and in order |
| EventApi.EventApi.CreateEvent | cmd/csv-importer/apis/event.go:59-143 | A missing or unopenable csvfile gives 400 with the error text. A decoder error, an id error or a store error gives 500 with its text. In none of these cases is anything stored, and only the store error follows an insert attempt. On success: 200, "success", and one draft event with the form's name, the generated id, the two clock readings and no delete date. That event is appended to the table, and at most one insert is attempted |
| EventApi.UploadThenList | cmd/csv-importer/apis/event.go:36-143 | After a valid upload the response carries the draft event. A following listing holds the earlier rows and that event, as multisets, so its id appears once more than before. In the model's insertion-ordered store the event also comes last |
| EventApi.RefusedUploadThenList | cmd/csv-importer/apis/event.go:36-143 | When the store refuses the insert, the upload answers 500 with the store's text and a following listing shows exactly the earlier rows, in the model's order and as a multiset |
| Dsn.ConnectionString | cmd/csv-importer/main.go:38-45 | The connection string always ends with " sslmode=disable TimeZone=UTC" |
| Dsn.ConnectionStringIsSettings | cmd/csv-importer/main.go:38-45 | The connection string is exactly the seven key=value settings host, port, user, password, dbname, sslmode, TimeZone, in that order, joined by single spaces, each value written verbatim and the port in decimal |
| Dsn.ParseOwnSettingWords | cmd/csv-importer/main.go:39-44 | Reading the seven settings back as key=value words recovers every field, the port included |
| Dsn.ParseConnectionStringRoundTrip | cmd/csv-importer/main.go:38-45 | When no text field holds a space, the split-at-spaces reader gives back the configuration |
| Dsn.SpacedFieldIsNotRecovered | cmd/csv-importer/main.go:38-45 | A space inside any text field makes the split-at-spaces reader reject the string: the values are neither quoted nor escaped |
| Dsn.ParseConnectionStringIff | cmd/csv-importer/main.go:38-45 | The split-at-spaces reader gives back the configuration exactly when none of its text fields holds a space |
| Dsn.LocalExample | cmd/csv-importer/main_test.go:213-225 | The localhost configuration gives the expected string |
| Dsn.SymbolsExample | cmd/csv-importer/main_test.go:227-239 | Values with a space and the symbols !@#$% go into the string unchanged |
| Dsn.EmptyExample | cmd/csv-importer/main_test.go:241-253 | Empty fields and port 0 give "host= port=0 user= password= dbname= sslmode=disable TimeZone=UTC" |
| Dsn.ConnectionStringExamples | cmd/csv-importer/main_test.go:213-253 | All three expected strings of the connection-string tests |
| GoStrings.HasSuffix | cmd/csv-importer/security_test.go:375 | Definition, no contract: `s` ends with `suffix` |
| GoStrings.Contains | cmd/csv-importer/security_test.go:419 | Definition, no contract: `sub` occurs at some position of `s` |
| GoStrings.Cut | cmd/csv-importer/security_test.go:360-366 | Helper behind FirstLine (the first piece of `strings.Split`), not a call of `strings.Cut`. No result exactly when the separator is absent; otherwise the text is the part before the first separator, the separator and the rest, and the first part holds no separator |
| GoStrings.Join | cmd/csv-importer/main.go:38-45 | Definition, no contract: the parts with one separator between neighbours. The code builds the string with `fmt.Sprintf` and never calls `strings.Join`; `Join` is the vocabulary in which `Dsn.ConnectionStringIsSettings` describes that string |
| GoStrings.FormatInt | cmd/csv-importer/main.go:39-41 | The decimal rendering is non-empty and holds no space, '=', ',' or line feed. It starts with a digit exactly when the number is not negative |
| GoStrings.DigitChar | cmd/csv-importer/main.go:39-41 | The character written for digit d is a digit, and the digit reader gives d back |
| GoStrings.DigitCharTable | cmd/csv-importer/main.go:39-41 | The character written for digit d is the d-th of "0123456789" |
| GoStrings.ParseFormatInt | cmd/csv-importer/main.go:39-41 | Reading the decimal rendering gives back the number |
| GoStrings.LowerChar | cmd/csv-importer/security_test.go:372 | One lower-cased character is never a capital. It differs from the input exactly when the input is a capital, and it is a small letter exactly when the input is a letter |
| GoStrings.ToLower | cmd/csv-importer/security_test.go:372 | Lowercasing keeps the length and maps each ASCII capital to its small letter, leaving every other character alone |
| GoStrings.ToLowerIdempotent | cmd/csv-importer/security_test.go:431 | Lowercasing twice is lowercasing once |
| GoStrings.Split | cmd/csv-importer/security_test.go:360 | Splitting gives at least one piece, no piece holds the separator, and joining the pieces with it gives back the text |
| GoStrings.SplitJoin | cmd/csv-importer/security_test.go:360 | Splitting undoes joining when no piece holds the separator |
| GoStrings.SplitCount | cmd/csv-importer/security_test.go:360-362 | Splitting gives one piece more than there are separators, so never fewer than one |
| GoStrings.LastIndex | cmd/csv-importer/security_test.go:432 | -1 or a position holding the character, with no occurrence after it |
| GoStrings.RemoveAll | cmd/csv-importer/security_test.go:397 | Deleting a non-empty pattern leaves the text unchanged exactly when the pattern does not occur, and otherwise shortens it. An empty pattern changes nothing |
| Security.HasValidCsvExtension | cmd/csv-importer/security_test.go:370-380 | Definition, no contract: the lowercase name ends in ".csv" or ".txt" |
| Security.ValidCsvExtensionIff | cmd/csv-importer/security_test.go:370-380 | A name passes the extension check exactly when its lowercase form ends in ".csv" or ".txt" |
| Security.ValidCsvExtensionOfStem | cmd/csv-importer/security_test.go:370-380 | Any stem followed by ".csv" or ".txt", in any letter case, passes |
| Security.ValidCsvExtensionIgnoresCase | cmd/csv-importer/security_test.go:372 | Letter case does not change the extension check |
| Security.ExtensionCases | cmd/csv-importer/security_test.go:148-182 | "data.csv" and "data.txt" pass the extension check; "malware.exe", "script.bat" and "page.html" fail it |
| Security.IsValidCsvContent | cmd/csv-importer/security_test.go:358-368 | Definition, no contract: the first piece of splitting at line feeds contains "," or "todo_name" |
| Security.FirstLine | cmd/csv-importer/security_test.go:360-366 | The first line is a prefix of the content without a line feed, and is followed by one when shorter than the content |
| Security.SplitFirstLine | cmd/csv-importer/security_test.go:360-366 | The first piece of splitting at line feeds is the text before the first line feed |
| Security.ValidCsvContentIff | cmd/csv-importer/security_test.go:358-368 | The content check passes exactly when the first line contains a comma or "todo_name"; the empty-split guard never fires |
| Security.ValidCsvContentOfFirstLine | cmd/csv-importer/security_test.go:358-368 | Whatever follows the first line feed does not affect the content check |
| Security.ContentCases | cmd/csv-importer/security_test.go:148-175 | The CSV body passes the content check; the executable header and the batch script fail it |
| Security.FileTypeValidationCases | cmd/csv-importer/security_test.go:185-199 | Each allowed row of the file-type table passes the content or the extension check, and each refused row fails at least one of them |
| Security.BaseName | cmd/csv-importer/security_test.go:431-434 | Definition, no contract: the lowercase name cut before its last dot, or whole when it has none |
| Security.IsValidFilename | cmd/csv-importer/security_test.go:403-456 | Definition, no contract: non-empty, at most 255 bytes, none of the ten fragments, no reserved base name and no dangerous extension, checked in that order |
| Security.BaseNameSplitsAtLastDot | cmd/csv-importer/security_test.go:431-434 | The base name is the lowercased name up to its last dot, with no dot after it; a name without a dot is its own base name |
| Security.ValidFilenameLength | cmd/csv-importer/security_test.go:404-411 | An accepted name is non-empty and at most 255 bytes long |
| Security.FilenamePatternRejected | cmd/csv-importer/security_test.go:413-422 | A name containing "../", "..\\", NUL, '<', '>', ':', '"', '|', '?' or '*' is rejected |
| Security.ReservedNameRejected | cmd/csv-importer/security_test.go:424-440 | A Windows device name, in any letter case, alone or with one extension, is rejected |
| Security.BaseNameOfStem | cmd/csv-importer/security_test.go:431-434 | Stripping a single extension from a dot-free stem leaves the lowercased stem |
| Security.DangerousExtensionRejected | cmd/csv-importer/security_test.go:442-453 | A name ending in an executable or script extension, in any letter case, is rejected |
| Security.PlainCsvNameAccepted | cmd/csv-importer/security_test.go:403-456 | Every name of letters, digits, '-', '_', spaces and dots followed by ".csv" is accepted when it is at most 255 bytes long and its stem is not a device name |
| Security.AcceptedFilenameCases | cmd/csv-importer/security_test.go:259-271 | "data.csv", "my-data_file.csv", "data with spaces.csv" and ".csv" are accepted |
| Security.UnsafeFragmentCases | cmd/csv-importer/security_test.go:262-268 | Path traversal, an embedded NUL and an embedded script tag are rejected |
| Security.ReservedNameCases | cmd/csv-importer/security_test.go:263-266 | "con.csv", "prn.csv", "aux.csv" and "nul.csv" are rejected |
| Security.LengthCases | cmd/csv-importer/security_test.go:269-270 | A 304-character name and the empty name are rejected |
| Security.ExecutableCases | cmd/csv-importer/security_test.go:272-273 | "normal.exe" and the double extension "data.csv.exe" are rejected |
| Security.Sanitized | cmd/csv-importer/security_test.go:382-401 | Definition, no contract: all eighteen deletion passes, in list order |
| Security.SanitizeFrom | cmd/csv-importer/security_test.go:396-398 | The remaining deletion passes never lengthen the text and shorten it whenever they change it |
| Security.SanitizeInput | cmd/csv-importer/security_test.go:382-401 | The loop deletes every listed pattern in list order, one pass per pattern, and returns the result of those passes, never longer than the input |
| Security.SanitizeFromUnchangedIff | cmd/csv-importer/security_test.go:396-398 | The passes from a given pattern on leave a text alone exactly when none of their patterns occurs in it |
| Security.SanitizedUnchangedIff | cmd/csv-importer/security_test.go:382-401 | sanitizeInput returns its input unchanged exactly when no pattern occurs in it, and otherwise returns something shorter |
| Security.HtmlTagsCase | cmd/csv-importer/security_test.go:207 | "<script>alert('xss')</script>" becomes "alert('xss')", which holds no pattern |
| Security.SqlInjectionCase | cmd/csv-importer/security_test.go:208 | "'; DROP TABLE events; --" becomes "';  events; --", which holds no pattern |
| Security.ExcelFormulaCase | cmd/csv-importer/security_test.go:209 | "=cmd\|'/c calc'!A1" becomes "'/c calc'!A1", which holds no pattern |
| Security.PathTraversalCase | cmd/csv-importer/security_test.go:210 | "../../../etc/passwd" becomes "etc/passwd", which holds no pattern |
| Security.CommandInjectionCase | cmd/csv-importer/security_test.go:211 | "$(rm -rf /)" becomes "rm -rf /)", which holds no pattern |
| Security.NullByteCase | cmd/csv-importer/security_test.go:212 | "test\x00injection" becomes "testinjection", which holds no pattern |
| Security.LdapInjectionCase | cmd/csv-importer/security_test.go:213 | The LDAP input holds no pattern and is returned unchanged |
| Security.XmlInjectionCase | cmd/csv-importer/security_test.go:214 | The XML input holds no pattern and is returned unchanged |
| Security.CleanIsFreeOfTestedFragments | cmd/csv-importer/security_test.go:223-228 | A text holding no pattern holds none of the six fragments the test looks for |
| Security.InputSanitizationCases | cmd/csv-importer/security_test.go:202-233 | For each of the eight test inputs, the sanitized text holds none of "<script>", "DROP TABLE", "=cmd\|", "../", "$(" and NUL |
| Security.SanitizeLeavesScriptTag | cmd/csv-importer/security_test.go:382-401 | sanitizeInput turns "<<script>script>" into "<script>", which still holds a pattern |
| Security.ScriptTagDeleted | cmd/csv-importer/security_test.go:382-401 | A bare "<script>" is deleted outright |
| Security.Purged | cmd/csv-importer/security_test.go:382-401 | Sanitizing repeatedly until nothing changes never lengthens the text |
| Security.PurgedIsClean | cmd/csv-importer/security_test.go:382-401 | Repeated sanitizing leaves no pattern, and one more call changes nothing |
| Security.PurgedUnchangedIff | cmd/csv-importer/security_test.go:382-401 | Repeated sanitizing leaves a text alone exactly when no pattern occurs in it |
| Security.SanitizeFully | cmd/csv-importer/security_test.go:382-401 | Calling sanitizeInput until its output stops changing returns the repeated-sanitizing result, which holds no pattern |
| Security.NestedTagPurged | cmd/csv-importer/security_test.go:382-401 | Repeated sanitizing removes "<<script>script>" entirely |
| CsvContent.RowCount | cmd/csv-importer/security_test.go:343-349 | The row count is at least one |
| CsvContent.RowCountFits | cmd/csv-importer/security_test.go:343-349 | For a target of at least 38 bytes, header plus row-count template rows fit in the target and one more row would not. A target below 61 bytes gives one row |
| CsvContent.RowLine | cmd/csv-importer/security_test.go:352 | Definition, no contract: "Task i,Note for task i" |
| CsvContent.Rows | cmd/csv-importer/security_test.go:351-353 | Definition, no contract: rows 0 to n-1, each followed by a line feed |
| CsvContent.CreateCsvContent | cmd/csv-importer/security_test.go:338-356 | The builder ends with the header "todo_name,note\n" followed by rows 0 to RowCount-1, each "Task i,Note for task i\n" |
| CsvContent.ContentLines | cmd/csv-importer/security_test.go:338-356 | Split at line feeds, the content is "todo_name,note", then row i on line i+1, then the empty text after the final line feed |
| CsvContent.RowLineFields | cmd/csv-importer/security_test.go:352 | A row has no line feed and splits at its only comma into "Task i" and "Note for task i" |
| CsvContent.GeneratedContentValid | cmd/csv-importer/security_test.go:338-368 | The generated content's first line is "todo_name,note" and it passes the CSV content check |
| CsvContent.FormatNatWidth | cmd/csv-importer/security_test.go:352 | A number below 10^k is written with at most k digits |
| CsvContent.RowsLength | cmd/csv-importer/security_test.go:351-353 | While row numbers stay below ten million, each row takes between 23 and 35 characters |
| CsvContent.ContentSizeNearTarget | cmd/csv-importer/security_test.go:50-52 | For targets from 38 bytes to 230 million, the content length differs from the target by at most 80% of the target |
| CsvContent.FileUploadSizeCases | cmd/csv-importer/security_test.go:20-52 | The content generated for 1 KiB, 1 MiB, 10 MiB and 100 MiB is within 80% of the requested size |
| CsvContent.CreatedContent | cmd/csv-importer/security_test.go:338-356 | For any target size, the output has exactly RowCount rows in order after the header, and passes the content check |

## Left out

- `Setup`, the echo routing and server start, the health check, `godump.Dump`, the GORM repository, `envconfig` and the `panic` paths of `main` are not part of this model. They are I/O or third-party calls.
- The multipart form, `gocsv.Unmarshal`, `uuid.NewV7`, `time.Now` and the database's success or error are parameters of the handler and the repository. Beyond the insertion-ordered store described under EventApi.EventRepo.CreateEvent below, their behaviour is not modelled. In particular, the uniqueness and time ordering of generated ids, and the decoder's quoting rules, are not modelled.
- Dsn.ParseConnectionString: a split-at-spaces reader, not the keyword/value grammar of libpq that the Postgres driver follows. The driver reads some strings differently even when no field holds a space: an empty value (the all-empty configuration's "host= port=0 …" gives host "port=0"), a tab or line feed in a value, a backslash, and a value starting with a single quote. The round-trip lemmas are about this reader only.
- EventApi.EventRepo.CreateEvent: the model appends an accepted insert at the end of the stored rows, and EventApi.EventRepo.ListEvents returns them in that order. The repository's select-all has no ORDER BY, so the database does not promise any order. Only the multiset clauses of EventApi.UploadThenList and EventApi.RefusedUploadThenList hold whatever order the database uses.
- EventApi.UploadThenList: states that the new id appears once more than before, not "exactly once". Uniqueness holds only when the generated id is fresh, and the model takes the id as a parameter.
- The request context and concurrent requests are not modelled. Each handler call runs alone.
- JSON encoding, including `omitempty` on `data` and `delete_date`, is not modelled. The envelope is a datatype.
- EventModel.StatusString: Go's `EventStatus` is a string type that can hold any text. The model has only the three named values, which are the only ones the code writes.
- GoStrings.ToLower: ASCII only; Go's Unicode case mapping is not modelled.
- Strings are sequences of characters with one character per byte. `len` is the sequence length, which agrees with Go for the ASCII text used here.
- GoStrings.FormatInt: the port is an unbounded integer. Go's 64-bit `int` range is not modelled.
- The rate-limit and content-length tests in `security_test.go` (lines 235-251 and 284-308) compute with local values only. They call none of the helpers, so they are not modelled. The 10 MB upload limit they describe does not exist in the code.
- `TestSecurity_MaliciousFileContent` (`security_test.go`:71-138), `TestSecurity_MemoryExhaustionProtection` (lines 310-334) and the parsing half of `TestSecurity_FileUploadSizeLimits` (lines 54-66) run `gocsv.Unmarshal`, whose behaviour is not modelled. `CsvContent.ContentLines` states the line and column structure such a decoder would read.
- Security.XmlInjectionCase: the XML test input is written as the concatenation of six pieces. It equals the source's literal character for character.
- CsvContent.ContentSizeNearTarget: proved for targets up to 230 million bytes, where row numbers have at most seven digits. This covers the four sizes of the test table; larger targets are not covered.

## Findings

| source | as written | input that shows it | evidently intended | confidence | as-written member | corrected member |
|---|---|---|---|---|---|---|
| cmd/csv-importer/security_test.go:382-401 | Each pattern gets a single deletion pass, so deleting a pattern can join its neighbours into a new occurrence | "<<script>script>" is sanitized to "<script>" | The sanitized text holds none of the patterns | medium; not executed | Security.SanitizeLeavesScriptTag | Security.SanitizeFully |

=== FILE: csv_content.dfy ===
/** The CSV generator of security_test.go:338-356: a header line followed by
    numbered "Task i,Note for task i" rows, as many as fit a target size. */
module CsvContent {
  import opened Wrappers
  import opened GoStrings
  import opened Security

  /** The header line the generator writes first. */
  const Header: string := "todo_name,note\n"

  /** The template row whose length sets the row budget. */
  const BaseRow: string := "Task X,Note for task X\n"

  /** Go's `/` on integers truncates toward zero. */
  function TruncDiv(a: int, b: int): int
    requires b > 0
  {
    if a >= 0 then a / b else -((-a) / b)
  }

  /** numRows: the template rows that fit after the header, and never fewer than one. */
  function RowCount(targetSize: int): (n: nat)
    ensures n >= 1
  {
    var q := TruncDiv(targetSize - |Header|, |BaseRow|);
    if q <= 0 then 1 else q
  }

  /** The rows counted are as many template rows as fit after the header: one
      more would overshoot the target. A target too small for two rows gives one. */
  lemma RowCountFits(targetSize: int)
    ensures var n := RowCount(targetSize);
      && (targetSize >= |Header| + |BaseRow| ==>
            |Header| + n * |BaseRow| <= targetSize < |Header| + (n + 1) * |BaseRow|)
      && (targetSize < |Header| + 2 * |BaseRow| ==> n == 1)
  {
  }

  /** Row i without its line feed: the `Sprintf("Task %d,Note for task %d\n", i, i)` text. */
  function RowLine(i: int): string {
    "Task " + FormatInt(i) + ",Note for task " + FormatInt(i)
  }

  /** The rows for indices 0 .. n-1, each ended by a line feed. */
  function Rows(n: nat): string {
    if n == 0 then "" else Rows(n - 1) + RowLine(n - 1) + "\n"
  }

  /** The row texts for indices 0 .. n-1. */
  function RowLines(n: nat): seq<string> {
    seq(n, i => RowLine(i))
  }

  /** createCSVContent: the builder receives the header, then rows 0 .. numRows-1. */
  method CreateCsvContent(targetSize: int) returns (content: string)
    ensures content == Header + Rows(RowCount(targetSize))
  {
    var header := Header;
    var builder := header;
    var baseRowSize := |BaseRow|;
    var numRows := TruncDiv(targetSize - |header|, baseRowSize);
    if numRows <= 0 {
      numRows := 1;
    }
    var i := 0;
    while i < numRows
      invariant 0 <= i <= numRows
      invariant builder == header + Rows(i)
    {
      AppendRow(header, i);
      builder := builder + RowLine(i) + "\n";
      i := i + 1;
    }
    content := builder;
  }

  /** Appending row i to the first i rows gives the first i + 1. */
  lemma AppendRow(prefix: string, i: nat)
    ensures prefix + Rows(i) + RowLine(i) + "\n" == prefix + Rows(i + 1)
  {
  }

  /** Read line by line, the content is the header names, then row i on line
      i + 1, then the empty text after the final line feed. */
  lemma ContentLines(n: nat)
    ensures Split(Header + Rows(n), '\n') == ["todo_name,note"] + RowLines(n) + [""]
  {
    var lines := ["todo_name,note"] + RowLines(n);
    JoinLines(n);
    JoinSnoc(lines, "", '\n');
    assert Join(lines + [""], '\n') == Header + Rows(n);
    HeaderLineSingle();
    forall k | 0 <= k < |lines + [""]|
      ensures '\n' !in (lines + [""])[k]
    {
      if 1 <= k <= n {
        RowLineFields(k - 1);
      }
    }
    SplitJoin(lines + [""], '\n');
  }

  /** The header and rows are the lines joined by line feeds, plus a final one. */
  lemma JoinLines(n: nat)
    ensures Join(["todo_name,note"] + RowLines(n), '\n') + "\n" == Header + Rows(n)
  {
    JoinLinesAfter("todo_name,note", n);
    HeaderSplit();
  }

  lemma {:induction false} JoinLinesAfter(first: string, n: nat)
    ensures Join([first] + RowLines(n), '\n') + "\n" == first + "\n" + Rows(n)
  {
    if n == 0 {
      assert [first] + RowLines(0) == [first];
    } else {
      var prev := [first] + RowLines(n - 1);
      RowLinesSnoc(n);
      assert [first] + RowLines(n) == prev + [RowLine(n - 1)];
      JoinSnoc(prev, RowLine(n - 1), '\n');
      JoinLinesAfter(first, n - 1);
      LineAfterJoin(Join(prev, '\n'), RowLine(n - 1), first + "\n", Rows(n - 1));
    }
  }

  lemma LineAfterJoin(joined: string, line: string, front: string, rows: string)
    requires joined + "\n" == front + rows
    ensures joined + ['\n'] + line + "\n" == front + (rows + line + "\n")
  {
  }

  lemma RowLinesSnoc(n: nat)
    requires n > 0
    ensures RowLines(n) == RowLines(n - 1) + [RowLine(n - 1)]
  {
  }

  lemma HeaderSplit()
    ensures "todo_name,note" + "\n" == Header
  {
  }

  lemma HeaderLineSingle()
    ensures '\n' !in "todo_name,note"
  {
  }

  /** Each row has exactly the two columns of a todo record, split at its only
      comma: the name "Task i" and the note "Note for task i". */
  lemma RowLineFields(i: int)
    ensures '\n' !in RowLine(i)
    ensures Cut(RowLine(i), ',') == Some(("Task " + FormatInt(i), "Note for task " + FormatInt(i)))
  {
    var d := FormatInt(i);
    RowPieces();
    assert RowLine(i) == ("Task " + d) + [','] + ("Note for task " + d);
    CutAt("Task " + d, ',', "Note for task " + d);
  }

  lemma RowPieces()
    ensures ",Note for task " == [','] + "Note for task "
    ensures ',' !in "Task " && '\n' !in "Task " && '\n' !in ",Note for task "
  {
  }

  /** The generated content opens with the header line and passes the CSV content check. */
  lemma GeneratedContentValid(n: nat)
    ensures FirstLine(Header + Rows(n)) == "todo_name,note"
    ensures IsValidCsvContent(Header + Rows(n))
  {
    HeaderSplit();
    HeaderLineSingle();
    FirstLineOf("todo_name,note", Rows(n));
    ValidCsvContentOfFirstLine("todo_name,note", Rows(n));
    ValidCsvContentIff("todo_name,note");
    HeaderHasComma();
  }

  /** What createCSVContent returns: rows 0 .. RowCount-1 after the header, as
      valid CSV content. */
  lemma CreatedContent(targetSize: int)
    ensures var n := RowCount(targetSize);
      && Split(Header + Rows(n), '\n') == ["todo_name,note"] + RowLines(n) + [""]
      && IsValidCsvContent(Header + Rows(n))
  {
    ContentLines(RowCount(targetSize));
    GeneratedContentValid(RowCount(targetSize));
  }
  /** 10 to the power k. */
  function Pow10(k: nat): (r: nat)
    ensures r >= 1
  {
    if k == 0 then 1 else 10 * Pow10(k - 1)
  }

  /** A number below 10^k has at most k decimal digits. */
  lemma {:induction false} FormatNatWidth(n: nat, k: nat)
    requires 1 <= k && n < Pow10(k)
    ensures |FormatNat(n)| <= k
    decreases k
  {
    if n >= 10 {
      assert k >= 2;
      FormatNatWidth(n / 10, k - 1);
    }
  }

  /** Row i with its line feed takes 21 characters plus twice its digits. */
  lemma RowLength(i: nat)
    ensures |RowLine(i) + "\n"| == 21 + 2 * |FormatNat(i)|
  {
  }

  /** Each of the first n rows takes between 23 and 35 characters while row
      numbers have at most seven digits. */
  lemma {:induction false} RowsLength(n: nat)
    requires n <= 10_000_000
    ensures 23 * n <= |Rows(n)| <= 35 * n
  {
    if n > 0 {
      RowsLength(n - 1);
      RowLength(n - 1);
      FormatNatWidth(n - 1, 7);
    }
  }

  /** The content is within 80% of the requested size either way (the
      `assert.InDelta` of the size-limit test), for any target from 38 bytes
      (room for the header and one row) up to 230 million. */
  lemma ContentSizeNearTarget(targetSize: int)
    requires 38 <= targetSize <= 230_000_000
    ensures var size := |Header + Rows(RowCount(targetSize))|;
      && 5 * (size - targetSize) <= 4 * targetSize
      && 5 * (targetSize - size) <= 4 * targetSize
  {
    var n := RowCount(targetSize);
    RowCountFits(targetSize);
    RowsLength(n);
  }

  /** The four sizes of the size-limit test table: 1 KiB, 1 MiB, 10 MiB and 100 MiB. */
  lemma FileUploadSizeCases()
    ensures forall targetSize :: targetSize in [1024, 1024 * 1024, 10 * 1024 * 1024, 100 * 1024 * 1024] ==>
      var size := |Header + Rows(RowCount(targetSize))|;
      5 * (size - targetSize) <= 4 * targetSize && 5 * (targetSize - size) <= 4 * targetSize
  {
    forall targetSize | targetSize in [1024, 1024 * 1024, 10 * 1024 * 1024, 100 * 1024 * 1024]
      ensures var size := |Header + Rows(RowCount(targetSize))|;
        5 * (size - targetSize) <= 4 * targetSize && 5 * (targetSize - size) <= 4 * targetSize
    {
      ContentSizeNearTarget(targetSize);
    }
  }
}

=== FILE: dsn.dfy ===
/** The database connection string that main.go builds from its configuration
    (main.go:38-45): a space-separated list of `key=value` settings. */
module Dsn {
  import opened Wrappers
  import opened GoStrings

  /** EnvCfg: the five required settings read from the environment. */
  datatype EnvCfg = EnvCfg(
    dbHost: string,
    dbPort: int,
    dbUser: string,
    dbPassword: string,
    dbName: string)

  /** The fmt.Sprintf in main: each value is inserted verbatim, the port in decimal. */
  function ConnectionString(cfg: EnvCfg): (dsn: string)
    ensures HasSuffix(dsn, " sslmode=disable TimeZone=UTC")
  {
    "host=" + cfg.dbHost + " port=" + FormatInt(cfg.dbPort) + " user=" + cfg.dbUser
      + " password=" + cfg.dbPassword + " dbname=" + cfg.dbName
      + " sslmode=disable TimeZone=UTC"
  }

  /** The settings the string is meant to carry, in order, as `key=value` words. */
  function SettingWords(cfg: EnvCfg): seq<string> {
    ["host=" + cfg.dbHost, "port=" + FormatInt(cfg.dbPort), "user=" + cfg.dbUser,
     "password=" + cfg.dbPassword, "dbname=" + cfg.dbName,
     "sslmode=disable", "TimeZone=UTC"]
  }

  /** The connection string is exactly the seven `key=value` settings, in the
      order host, port, user, password, dbname, sslmode, TimeZone, joined by
      single spaces. */
  lemma ConnectionStringIsSettings(cfg: EnvCfg)
    ensures ConnectionString(cfg) == Join(SettingWords(cfg), ' ')
  {
    var w := SettingWords(cfg);
    ConnectionStringSpaced(cfg);
    JoinSeven(w[0], w[1], w[2], w[3], w[4], w[5], w[6]);
    assert w == [w[0], w[1], w[2], w[3], w[4], w[5], w[6]];
  }

  lemma ConnectionStringSpaced(cfg: EnvCfg)
    ensures ConnectionString(cfg)
      == "host=" + cfg.dbHost + " " + ("port=" + FormatInt(cfg.dbPort)) + " " + ("user=" + cfg.dbUser)
         + " " + ("password=" + cfg.dbPassword) + " " + ("dbname=" + cfg.dbName)
         + " " + "sslmode=disable" + " " + "TimeZone=UTC"
  {
    var s1 := "host=" + cfg.dbHost;
    var s2 := s1 + " port=" + FormatInt(cfg.dbPort);
    var s3 := s2 + " user=" + cfg.dbUser;
    var s4 := s3 + " password=" + cfg.dbPassword;
    var s5 := s4 + " dbname=" + cfg.dbName;
    SpacedKeys();
    AppendSpaced(s1, " port=", "port=", FormatInt(cfg.dbPort));
    AppendSpaced(s2, " user=", "user=", cfg.dbUser);
    AppendSpaced(s3, " password=", "password=", cfg.dbPassword);
    AppendSpaced(s4, " dbname=", "dbname=", cfg.dbName);
    FixedTail(s5);
  }

  lemma SpacedKeys()
    ensures " port=" == " " + "port="
    ensures " user=" == " " + "user="
    ensures " password=" == " " + "password="
    ensures " dbname=" == " " + "dbname="
  {
  }

  lemma AppendSpaced(acc: string, spacedKey: string, key: string, value: string)
    requires spacedKey == " " + key
    ensures acc + spacedKey + value == acc + " " + (key + value)
  {
  }

  lemma FixedTail(acc: string)
    ensures acc + " sslmode=disable TimeZone=UTC" == acc + " " + "sslmode=disable" + " " + "TimeZone=UTC"
  {
    assert " sslmode=disable TimeZone=UTC" == " " + "sslmode=disable" + " " + "TimeZone=UTC";
  }

  lemma JoinSeven(a: string, b: string, c: string, d: string, e: string, f: string, g: string)
    ensures Join([a, b, c, d, e, f, g], ' ') == a + " " + b + " " + c + " " + d + " " + e + " " + f + " " + g
  {
    JoinSnoc([a], b, ' ');
    assert [a] + [b] == [a, b];
    JoinSnoc([a, b], c, ' ');
    assert [a, b] + [c] == [a, b, c];
    JoinSnoc([a, b, c], d, ' ');
    assert [a, b, c] + [d] == [a, b, c, d];
    JoinSnoc([a, b, c, d], e, ' ');
    assert [a, b, c, d] + [e] == [a, b, c, d, e];
    JoinSnoc([a, b, c, d, e], f, ' ');
    assert [a, b, c, d, e] + [f] == [a, b, c, d, e, f];
    JoinSnoc([a, b, c, d, e, f], g, ' ');
    assert [a, b, c, d, e, f] + [g] == [a, b, c, d, e, f, g];
  }

  /** The value of one `key=value` word when its key is `key`. */
  function ValueOf(word: string, key: string): Option<string> {
    match Cut(word, '=')
    case None => None
    case Some((k, v)) => if k == key then Some(v) else None
  }

  /** A simple reader for the connection string: split at spaces, expect the
      seven keys in order with the fixed sslmode and TimeZone values and a
      decimal port. It stands for a reader that takes the string exactly as
      written; the database driver's keyword/value grammar (skipped blanks after
      '=', any whitespace ending a value, backslash and quote escapes) is not
      this reader. */
  function ParseConnectionString(dsn: string): Option<EnvCfg> {
    ParseSettingWords(Split(dsn, ' '))
  }

  function ParseSettingWords(words: seq<string>): Option<EnvCfg> {
    if |words| != 7 then None
    else
      var host := ValueOf(words[0], "host");
      var port := ValueOf(words[1], "port");
      var user := ValueOf(words[2], "user");
      var password := ValueOf(words[3], "password");
      var dbname := ValueOf(words[4], "dbname");
      if host.None? || port.None? || user.None? || password.None? || dbname.None? then None
      else if ValueOf(words[5], "sslmode") != Some("disable") then None
      else if ValueOf(words[6], "TimeZone") != Some("UTC") then None
      else
        match ParseInt(port.value)
        case None => None
        case Some(n) => Some(EnvCfg(host.value, n, user.value, password.value, dbname.value))
  }

  /** No text field holds a space. */
  predicate SpaceFree(cfg: EnvCfg) {
    ' ' !in cfg.dbHost && ' ' !in cfg.dbUser && ' ' !in cfg.dbPassword && ' ' !in cfg.dbName
  }

  lemma ValueOfSetting(key: string, value: string)
    requires '=' !in key
    ensures ValueOf(key + "=" + value, key) == Some(value)
  {
    CutAt(key, '=', value);
    assert key + ['='] + value == key + "=" + value;
  }

  lemma ParseOwnSettingWords(cfg: EnvCfg)
    ensures ParseSettingWords(SettingWords(cfg)) == Some(cfg)
  {
    SettingKeys();
    ValueOfSetting("host", cfg.dbHost);
    ValueOfSetting("port", FormatInt(cfg.dbPort));
    ValueOfSetting("user", cfg.dbUser);
    ValueOfSetting("password", cfg.dbPassword);
    ValueOfSetting("dbname", cfg.dbName);
    FixedSettings();
    ParseFormatInt(cfg.dbPort);
    ParseSettingWordsOf(cfg, "host=" + cfg.dbHost, "port=" + FormatInt(cfg.dbPort), "user=" + cfg.dbUser,
      "password=" + cfg.dbPassword, "dbname=" + cfg.dbName);
  }

  /** The five keys of the variable settings, each written before its '='. */
  lemma SettingKeys()
    ensures "host=" == "host" + "=" && "port=" == "port" + "=" && "user=" == "user" + "="
    ensures "password=" == "password" + "=" && "dbname=" == "dbname" + "="
    ensures '=' !in "host" && '=' !in "port" && '=' !in "user" && '=' !in "password" && '=' !in "dbname"
  {
  }

  lemma ParseSettingWordsOf(cfg: EnvCfg, host: string, port: string, user: string, password: string, name: string)
    requires ValueOf(host, "host") == Some(cfg.dbHost)
    requires ValueOf(port, "port") == Some(FormatInt(cfg.dbPort))
    requires ValueOf(user, "user") == Some(cfg.dbUser)
    requires ValueOf(password, "password") == Some(cfg.dbPassword)
    requires ValueOf(name, "dbname") == Some(cfg.dbName)
    requires ValueOf("sslmode=disable", "sslmode") == Some("disable")
    requires ValueOf("TimeZone=UTC", "TimeZone") == Some("UTC")
    requires ParseInt(FormatInt(cfg.dbPort)) == Some(cfg.dbPort)
    ensures ParseSettingWords([host, port, user, password, name, "sslmode=disable", "TimeZone=UTC"]) == Some(cfg)
  {
  }

  lemma FixedSettings()
    ensures ValueOf("sslmode=disable", "sslmode") == Some("disable")
    ensures ValueOf("TimeZone=UTC", "TimeZone") == Some("UTC")
  {
    SslModeSetting();
    TimeZoneSetting();
  }

  lemma SslModeSetting()
    ensures ValueOf("sslmode=disable", "sslmode") == Some("disable")
  {
    assert "sslmode=disable" == "sslmode" + "=" + "disable";
    ValueOfSetting("sslmode", "disable");
  }

  lemma TimeZoneSetting()
    ensures ValueOf("TimeZone=UTC", "TimeZone") == Some("UTC")
  {
    assert "TimeZone=UTC" == "TimeZone" + "=" + "UTC";
    ValueOfSetting("TimeZone", "UTC");
  }

  /** With no space in any text field, the split-at-spaces reader gives back the
      configuration the string was built from. */
  lemma ParseConnectionStringRoundTrip(cfg: EnvCfg)
    requires SpaceFree(cfg)
    ensures ParseConnectionString(ConnectionString(cfg)) == Some(cfg)
  {
    var w := SettingWords(cfg);
    ConnectionStringIsSettings(cfg);
    assert ' ' !in w[0] && ' ' !in w[1] && ' ' !in w[2] && ' ' !in w[3];
    assert ' ' !in w[4] && ' ' !in w[5] && ' ' !in w[6];
    SplitJoin(w, ' ');
    ParseOwnSettingWords(cfg);
  }

  /** A space inside a text field adds a word, and the split-at-spaces reader
      rejects the string: the values are written unquoted. */
  lemma SpacedFieldIsNotRecovered(cfg: EnvCfg)
    requires !SpaceFree(cfg)
    ensures ParseConnectionString(ConnectionString(cfg)) == None
  {
    var w := SettingWords(cfg);
    ConnectionStringIsSettings(cfg);
    if ' ' in cfg.dbHost {
      SpacedWord(w, 0, "host=", cfg.dbHost);
    } else if ' ' in cfg.dbUser {
      SpacedWord(w, 2, "user=", cfg.dbUser);
    } else if ' ' in cfg.dbPassword {
      SpacedWord(w, 3, "password=", cfg.dbPassword);
    } else {
      SpacedWord(w, 4, "dbname=", cfg.dbName);
    }
  }

  /** A space inside one of the words adds to the six spaces between them. */
  lemma SpacedWord(w: seq<string>, i: nat, key: string, value: string)
    requires i < |w| == 7 && w[i] == key + value && ' ' in value
    ensures ParseConnectionString(Join(w, ' ')) == None
  {
    SpaceInValue(key, value);
    JoinCountsSeparators(w, ' ', i);
    TooManySpaces(Join(w, ' '));
  }

  lemma SpaceInValue(key: string, value: string)
    requires ' ' in value
    ensures multiset(key + value)[' '] >= 1
  {
    assert multiset(key + value) == multiset(key) + multiset(value);
  }

  /** Seven or more spaces give more than seven words. */
  lemma TooManySpaces(dsn: string)
    requires multiset(dsn)[' '] >= 7
    ensures ParseConnectionString(dsn) == None
  {
    SplitCount(dsn, ' ');
  }

  /** Because nothing is quoted or escaped, the split-at-spaces reader gives back
      the configuration exactly when none of its text fields holds a space. */
  lemma ParseConnectionStringIff(cfg: EnvCfg)
    ensures ParseConnectionString(ConnectionString(cfg)) == Some(cfg) <==> SpaceFree(cfg)
  {
    if SpaceFree(cfg) {
      ParseConnectionStringRoundTrip(cfg);
    } else {
      SpacedFieldIsNotRecovered(cfg);
    }
  }

  /** The connection string read one setting at a time, so that concrete
      examples can be checked piece by piece. */
  lemma ConnectionStringPieces(cfg: EnvCfg, host: string, port: string, user: string, password: string, name: string)
    requires "host=" + cfg.dbHost == host
    requires " port=" + FormatInt(cfg.dbPort) == port
    requires " user=" + cfg.dbUser == user
    requires " password=" + cfg.dbPassword == password
    requires " dbname=" + cfg.dbName == name
    ensures ConnectionString(cfg) == host + port + user + password + name + " sslmode=disable TimeZone=UTC"
  {
    var s2 := "host=" + cfg.dbHost + " port=" + FormatInt(cfg.dbPort);
    assert s2 == host + port;
    var s3 := s2 + " user=" + cfg.dbUser;
    assert s3 == host + port + user;
    var s4 := s3 + " password=" + cfg.dbPassword;
    assert s4 == host + port + user + password;
    var s5 := s4 + " dbname=" + cfg.dbName;
    assert s5 == host + port + user + password + name;
  }

  lemma LocalExample()
    ensures ConnectionString(EnvCfg("localhost", 5432, "testuser", "testpass", "testdb"))
      == "host=localhost" + " port=5432" + " user=testuser"
         + " password=testpass" + " dbname=testdb" + " sslmode=disable TimeZone=UTC"
  {
    LocalSettings();
    ConnectionStringPieces(EnvCfg("localhost", 5432, "testuser", "testpass", "testdb"),
      "host=localhost", " port=5432", " user=testuser", " password=testpass", " dbname=testdb");
  }

  lemma LocalSettings()
    ensures "host=" + "localhost" == "host=localhost"
    ensures " port=" + FormatInt(5432) == " port=5432"
    ensures " user=" + "testuser" == " user=testuser"
    ensures " password=" + "testpass" == " password=testpass"
    ensures " dbname=" + "testdb" == " dbname=testdb"
  {
    assert FormatInt(5432) == "5432";
  }

  lemma SymbolsExample()
    ensures ConnectionString(EnvCfg("db.example.com", 3306, "user@domain", "pass word!@#$%", "my-database"))
      == "host=db.example.com" + " port=3306" + " user=user@domain"
         + " password=pass word!@#$%" + " dbname=my-database" + " sslmode=disable TimeZone=UTC"
  {
    SymbolsSettings();
    ConnectionStringPieces(EnvCfg("db.example.com", 3306, "user@domain", "pass word!@#$%", "my-database"),
      "host=db.example.com", " port=3306", " user=user@domain", " password=pass word!@#$%", " dbname=my-database");
  }

  lemma SymbolsSettings()
    ensures "host=" + "db.example.com" == "host=db.example.com"
    ensures " port=" + FormatInt(3306) == " port=3306"
    ensures " user=" + "user@domain" == " user=user@domain"
    ensures " password=" + "pass word!@#$%" == " password=pass word!@#$%"
    ensures " dbname=" + "my-database" == " dbname=my-database"
  {
    SymbolsAddress();
    SymbolsCredentials();
  }

  lemma SymbolsAddress()
    ensures "host=" + "db.example.com" == "host=db.example.com"
    ensures " port=" + FormatInt(3306) == " port=3306"
  {
    assert FormatInt(3306) == "3306";
  }

  lemma SymbolsCredentials()
    ensures " user=" + "user@domain" == " user=user@domain"
    ensures " password=" + "pass word!@#$%" == " password=pass word!@#$%"
    ensures " dbname=" + "my-database" == " dbname=my-database"
  {
  }

  lemma EmptyExample()
    ensures ConnectionString(EnvCfg("", 0, "", "", ""))
      == "host=" + " port=0" + " user="
         + " password=" + " dbname=" + " sslmode=disable TimeZone=UTC"
  {
    EmptySettings();
    ConnectionStringPieces(EnvCfg("", 0, "", "", ""),
      "host=", " port=0", " user=", " password=", " dbname=");
  }

  lemma EmptySettings()
    ensures "host=" + "" == "host="
    ensures " port=" + FormatInt(0) == " port=0"
    ensures " user=" + "" == " user="
    ensures " password=" + "" == " password="
    ensures " dbname=" + "" == " dbname="
  {
    assert FormatInt(0) == "0";
  }

  /** The expected strings of main_test.go, including values with spaces and
      symbols inserted as they are and the all-empty configuration. */
  lemma ConnectionStringExamples()
    ensures ConnectionString(EnvCfg("localhost", 5432, "testuser", "testpass", "testdb"))
      == "host=localhost" + " port=5432" + " user=testuser"
         + " password=testpass" + " dbname=testdb" + " sslmode=disable TimeZone=UTC"
    ensures ConnectionString(EnvCfg("db.example.com", 3306, "user@domain", "pass word!@#$%", "my-database"))
      == "host=db.example.com" + " port=3306" + " user=user@domain"
         + " password=pass word!@#$%" + " dbname=my-database" + " sslmode=disable TimeZone=UTC"
    ensures ConnectionString(EnvCfg("", 0, "", "", ""))
      == "host=" + " port=0" + " user=" + " password=" + " dbname=" + " sslmode=disable TimeZone=UTC"
  {
    LocalExample();
    SymbolsExample();
    EmptyExample();
  }
}

=== FILE: event_api.dfy ===
/** The two handlers of apis/event.go. The collaborators they call (the multipart
    form, the CSV decoder, the UUID generator and the database) are not part of
    this model: their answers are parameters, and the repository is an object
    whose state is the list of stored events. */
module EventApi {
  import opened Wrappers
  import opened EventModel

  const StatusOK := 200
  const StatusBadRequest := 400
  const StatusInternalServerError := 500
  const SuccessMessage := "success"

  /** What `c.JSON(status, body)` answers. */
  datatype Response = Response(status: int, body: BaseResponse)

  /** The answer of every failed step: the status and the error text, no data. */
  function Failure(status: int, message: string): Response
  {
    Response(status, BaseResponse(message, NoData))
  }

  /** An uploaded multipart file: its name and what opening it gives, the content
      or the error text. */
  datatype FileHeader = FileHeader(filename: string, openResult: Result<string>)

  /** What createEvent reads from the request: the `name` field (the empty string
      when absent, as c.FormValue gives it) and the `csvfile` field lookup. */
  datatype UploadForm = UploadForm(name: string, csvfile: Result<FileHeader>)

  /** The upload could be found and opened. */
  predicate Opened(form: UploadForm) {
    form.csvfile.Ok? && form.csvfile.value.openResult.Ok?
  }

  /** The upload was opened and the CSV decoder accepted its content. */
  predicate Decoded(form: UploadForm, decode: string -> Result<seq<TodoCsv>>) {
    Opened(form) && decode(form.csvfile.value.openResult.value).Ok?
  }

  /** The event store behind IEventRepo (apis/event.go:15-18). `events` is what
      the table holds, in the order a scan returns it; `created` lists every event
      handed to CreateEvent, in call order, whether or not the store accepted it. */
  class EventRepo {
    var events: seq<Event>
    var created: seq<Event>

    constructor (initial: seq<Event>)
      ensures events == initial && created == []
    {
      events := initial;
      created := [];
    }

    /** Select all rows; `failure` is the database error, if any. */
    method ListEvents(failure: Option<string>) returns (result: Result<seq<Event>>)
      ensures failure.Some? ==> result == Err(failure.value)
      ensures failure.None? ==> result == Ok(events)
    {
      if failure.Some? {
        result := Err(failure.value);
      } else {
        result := Ok(events);
      }
    }

    /** Insert one row; `failure` is the database error, if any. A failed insert
        leaves the table as it was. */
    method CreateEvent(event: Event, failure: Option<string>) returns (err: Option<string>)
      modifies this
      ensures err == failure
      ensures created == old(created) + [event]
      ensures events == if failure.None? then old(events) + [event] else old(events)
    {
      created := created + [event];
      if failure.None? {
        events := events + [event];
      }
      err := failure;
    }
  }

  /** EventAPI: the handlers, holding the repository they were built with. */
  class EventApi {
    const eventRepo: EventRepo

    constructor (eventRepo: EventRepo)
      ensures this.eventRepo == eventRepo
    {
      this.eventRepo := eventRepo;
    }

    /** GET /events: the stored list, unchanged and in order, or the store's error
        text with status 500 and no data. */
    method ListEvents(storeFailure: Option<string>) returns (resp: Response)
      ensures storeFailure.Some? ==>
        resp == Failure(StatusInternalServerError, storeFailure.value)
      ensures storeFailure.None? ==>
        resp == Response(StatusOK, BaseResponse(SuccessMessage, EventList(eventRepo.events)))
    {
      var events := eventRepo.ListEvents(storeFailure);
      if events.Err? {
        return Failure(StatusInternalServerError, events.message);
      }
      return Response(StatusOK, BaseResponse(SuccessMessage, EventList(events.value)));
    }

    /** POST /event. `decode` is what the CSV decoder yields for a file content,
        `newId` what the UUID generator yields, `createDate` and `updateDate` the
        two clock readings, and `storeFailure` the database's answer to the insert.
        Each step that fails answers at once with its status and the raw error
        text, and only a request that passes every step reaches the repository. */
    method CreateEvent(
      form: UploadForm,
      decode: string -> Result<seq<TodoCsv>>,
      newId: Result<string>,
      createDate: Time,
      updateDate: Time,
      storeFailure: Option<string>)
      returns (resp: Response)
      modifies eventRepo
      // The form has no `csvfile`, or it cannot be opened: 400, nothing stored.
      ensures form.csvfile.Err? ==>
        resp == Failure(StatusBadRequest, form.csvfile.message) && unchanged(eventRepo)
      ensures form.csvfile.Ok? && form.csvfile.value.openResult.Err? ==>
        resp == Failure(StatusBadRequest, form.csvfile.value.openResult.message) && unchanged(eventRepo)
      // The decoder rejects the content: 500 with its message, nothing stored.
      ensures Opened(form) && !Decoded(form, decode) ==>
        resp == Failure(StatusInternalServerError, decode(form.csvfile.value.openResult.value).message)
        && unchanged(eventRepo)
      // No id could be generated: 500, nothing stored.
      ensures Decoded(form, decode) && newId.Err? ==>
        resp == Failure(StatusInternalServerError, newId.message) && unchanged(eventRepo)
      // Otherwise exactly one draft event reaches the store.
      ensures Decoded(form, decode) && newId.Ok? ==>
        var event := Event(newId.value, form.name, Created, createDate, updateDate, None);
        && eventRepo.created == old(eventRepo.created) + [event]
        && (storeFailure.Some? ==>
              resp == Failure(StatusInternalServerError, storeFailure.value)
              && eventRepo.events == old(eventRepo.events))
        && (storeFailure.None? ==>
              resp == Response(StatusOK, BaseResponse(SuccessMessage, OneEvent(event)))
              && eventRepo.events == old(eventRepo.events) + [event])
      // Whatever happens: at most one insert, and the table grows only on success,
      // by exactly the event the response carries.
      ensures |eventRepo.created| <= |old(eventRepo.created)| + 1
      ensures resp.status in {StatusOK, StatusBadRequest, StatusInternalServerError}
      ensures resp.status == StatusOK <==> resp.body.data.OneEvent?
      ensures resp.status == StatusOK ==>
        && resp.body.message == SuccessMessage
        && eventRepo.events == old(eventRepo.events) + [resp.body.data.event]
        && resp.body.data.event.status == Created
        && resp.body.data.event.deleteDate.None?
      ensures resp.status != StatusOK ==>
        eventRepo.events == old(eventRepo.events) && resp.body.data == NoData
    {
      var eventName := form.name;
      if form.csvfile.Err? {
        return Failure(StatusBadRequest, form.csvfile.message);
      }
      var csvfile := form.csvfile.value;

      if csvfile.openResult.Err? {
        return Failure(StatusBadRequest, csvfile.openResult.message);
      }
      var content := csvfile.openResult.value;

      var todos := decode(content);
      if todos.Err? {
        return Failure(StatusInternalServerError, todos.message);
      }

      if newId.Err? {
        return Failure(StatusInternalServerError, newId.message);
      }

      var event := Event(newId.value, eventName, Created, createDate, updateDate, None);
      var err := eventRepo.CreateEvent(event, storeFailure);
      if err.Some? {
        return Failure(StatusInternalServerError, err.value);
      }

      return Response(StatusOK, BaseResponse(SuccessMessage, OneEvent(event)));
    }
  }

  /** How many events in `events` carry the identifier `id`. */
  function CountId(events: seq<Event>, id: string): (n: nat)
    ensures n <= |events|
    ensures n == 0 <==> forall i :: 0 <= i < |events| ==> events[i].id != id
    decreases |events|
  {
    if |events| == 0 then 0
    else CountId(events[..|events| - 1], id) + (if events[|events| - 1].id == id then 1 else 0)
  }

  lemma CountIdAppend(events: seq<Event>, e: Event, id: string)
    ensures CountId(events + [e], id) == CountId(events, id) + (if e.id == id then 1 else 0)
  {
    assert (events + [e])[..|events|] == events;
  }

  /** A valid upload followed by a listing: the upload answers 200 with a draft
      event carrying the form's name and the generated id, and the listing holds
      the earlier rows and that event, so its id appears once more than before.
      The repository keeps rows in insertion order, so the listing also puts the
      new event last; the order-free multiset clause is what holds of any store. */
  method UploadThenList(
    initial: seq<Event>, name: string, id: string, createDate: Time, updateDate: Time,
    content: string, todos: seq<TodoCsv>)
    returns (created: Response, listed: Response)
    ensures created.status == StatusOK && created.body.message == SuccessMessage
    ensures created.body.data.OneEvent?
    ensures created.body.data.event == Event(id, name, Created, createDate, updateDate, None)
    ensures listed.status == StatusOK
    ensures listed.body.data == EventList(initial + [created.body.data.event])
    ensures multiset(listed.body.data.events) == multiset(initial) + multiset{created.body.data.event}
    ensures CountId(listed.body.data.events, id) == CountId(initial, id) + 1
  {
    var repo := new EventRepo(initial);
    var api := new EventApi(repo);
    var form := UploadForm(name, Ok(FileHeader("test.csv", Ok(content))));
    created := api.CreateEvent(form, _ => Ok(todos), Ok(id), createDate, updateDate, None);
    listed := api.ListEvents(None);
    CountIdAppend(initial, created.body.data.event, id);
  }

  /** An upload whose insert the database refuses (a duplicate id, say), followed
      by a listing: the upload answers 500 with the database's text and the listing
      shows exactly the earlier rows. */
  method RefusedUploadThenList(
    initial: seq<Event>, name: string, id: string, createDate: Time, updateDate: Time,
    content: string, todos: seq<TodoCsv>, storeError: string)
    returns (created: Response, listed: Response)
    ensures created == Failure(StatusInternalServerError, storeError)
    ensures listed.status == StatusOK && listed.body.data == EventList(initial)
    ensures multiset(listed.body.data.events) == multiset(initial)
    ensures CountId(listed.body.data.events, id) == CountId(initial, id)
  {
    var repo := new EventRepo(initial);
    var api := new EventApi(repo);
    var form := UploadForm(name, Ok(FileHeader("test.csv", Ok(content))));
    created := api.CreateEvent(form, _ => Ok(todos), Ok(id), createDate, updateDate, Some(storeError));
    listed := api.ListEvents(None);
  }
}

=== FILE: event_model.dfy ===
/** The records of model/event.go and the response envelope of model/rest.go. */
module EventModel {
  import opened Wrappers

  /** The three event statuses. In Go `EventStatus` is a string type with three
      named values; the model keeps only those three. */
  datatype EventStatus = Created | Start | End

  /** The string each status stands for (the value stored in the `status` column
      and written to JSON). */
  function StatusString(s: EventStatus): (text: string)
    ensures |text| >= 3
    ensures ParseStatus(text) == Some(s)
  {
    match s
    case Created => "draft"
    case Start => "start"
    case End => "end"
  }

  /** Reading a status back from its string form; any other string is not a status. */
  function ParseStatus(text: string): Option<EventStatus> {
    if text == "draft" then Some(Created)
    else if text == "start" then Some(Start)
    else if text == "end" then Some(End)
    else None
  }

  /** Parsing accepts exactly the three status strings, each naming one status. */
  lemma ParseStatusExact(text: string, s: EventStatus)
    ensures ParseStatus(text) == Some(s) <==> StatusString(s) == text
  {
  }

  /** No two statuses share a string form. */
  lemma StatusStringInjective(a: EventStatus, b: EventStatus)
    ensures StatusString(a) == StatusString(b) ==> a == b
  {
    assert ParseStatus(StatusString(a)) == Some(a);
  }

  /** The only strings that are statuses are "draft", "start" and "end". */
  lemma StatusStrings(text: string)
    ensures ParseStatus(text).Some? <==> text in ["draft", "start", "end"]
  {
  }

  /** A point in time (Go's time.Time), kept opaque: nothing here compares times. */
  datatype Time = Time(unixNano: int)

  /** One row of the `events` table. `DeleteDate` is a pointer in Go, so it may be
      absent; the two other timestamps are always present. */
  datatype Event = Event(
    id: string,
    name: string,
    status: EventStatus,
    createDate: Time,
    updateDate: Time,
    deleteDate: Option<Time>)

  /** One row of the `todo_events` table; no code path writes it. */
  datatype TodoEvent = TodoEvent(
    id: string,
    eventId: string,
    createDate: Time,
    updateDate: Time,
    deleteDate: Option<Time>)

  /** One record decoded from an uploaded CSV file (model.TodoCSV). */
  datatype TodoCsv = TodoCsv(todoName: string, note: string)

  /** The table an Event is stored in, whatever its field values. */
  function TableName(e: Event): (table: string)
    ensures table == "events"
  {
    "events"
  }

  /** The `data` member of the envelope: omitted, one event, or a list of events. */
  datatype Payload = NoData | OneEvent(event: Event) | EventList(events: seq<Event>)

  /** model.BaseResponse: every endpoint answers `{"message": ..., "data"?: ...}`. */
  datatype BaseResponse = BaseResponse(message: string, data: Payload)
}

=== FILE: gostrings.dfy ===
/** The parts of Go's `strings` and `fmt` packages that the modelled code relies
    on, written over `string` (a sequence of characters). Every character is taken
    to be one byte, so `len` is the length of the sequence; case mapping is ASCII
    only. */
module GoStrings {
  import opened Wrappers

  /** strings.HasPrefix */
  predicate HasPrefix(s: string, prefix: string) {
    |prefix| <= |s| && s[..|prefix|] == prefix
  }

  /** strings.HasSuffix */
  predicate HasSuffix(s: string, suffix: string) {
    |suffix| <= |s| && s[|s| - |suffix|..] == suffix
  }

  /** strings.Contains: `sub` occurs somewhere in `s`. */
  predicate Contains(s: string, sub: string)
    decreases |s|
  {
    HasPrefix(s, sub) || (|s| > 0 && Contains(s[1..], sub))
  }

  lemma {:induction false} ContainsAt(s: string, sub: string, i: nat)
    requires i <= |s| && HasPrefix(s[i..], sub)
    ensures Contains(s, sub)
    decreases i
  {
    if i > 0 {
      assert s[1..][i - 1..] == s[i..];
      ContainsAt(s[1..], sub, i - 1);
    }
  }

  lemma {:induction false} ContainsWitness(s: string, sub: string) returns (i: nat)
    requires Contains(s, sub)
    ensures i <= |s| && HasPrefix(s[i..], sub)
    decreases |s|
  {
    if HasPrefix(s, sub) {
      i := 0;
    } else {
      var j := ContainsWitness(s[1..], sub);
      assert s[1..][j..] == s[j + 1..];
      i := j + 1;
    }
  }

  /** An occurrence of `sub` needs room in `s` and every character of `sub`. */
  lemma {:induction false} ContainsNeedsChar(s: string, sub: string, k: nat)
    requires k < |sub| && sub[k] !in s
    ensures !Contains(s, sub)
    decreases |s|
  {
    if |s| > 0 {
      ContainsNeedsChar(s[1..], sub, k);
    }
    if |sub| <= |s| {
      assert s[..|sub|][k] == s[k];
    }
  }

  lemma {:induction false} ContainsAppend(a: string, s: string, sub: string)
    requires Contains(s, sub)
    ensures Contains(a + s, sub)
  {
    var i := ContainsWitness(s, sub);
    assert (a + s)[|a| + i..] == s[i..];
    ContainsAt(a + s, sub, |a| + i);
  }

  /** ASCII lower-casing of one character (strings.ToLower, restricted to ASCII). */
  function LowerChar(c: char): (l: char)
    ensures !('A' <= l <= 'Z')
    ensures l != c <==> 'A' <= c <= 'Z'
    ensures 'a' <= l <= 'z' <==> 'a' <= c <= 'z' || 'A' <= c <= 'Z'
  {
    if 'A' <= c <= 'Z' then (c as int + 32) as char else c
  }

  /** strings.ToLower, ASCII only. */
  function ToLower(s: string): (r: string)
    ensures |r| == |s|
    ensures forall i :: 0 <= i < |s| ==> r[i] == LowerChar(s[i])
    decreases |s|
  {
    if |s| == 0 then "" else [LowerChar(s[0])] + ToLower(s[1..])
  }

  lemma ToLowerIdempotent(s: string)
    ensures ToLower(ToLower(s)) == ToLower(s)
  {
  }

  /** Text without capital letters is its own lowercase form. */
  lemma ToLowerNoCapitals(s: string)
    requires forall c :: c in s ==> !('A' <= c <= 'Z')
    ensures ToLower(s) == s
  {
    assert forall i :: 0 <= i < |s| ==> s[i] in s;
  }

  lemma ToLowerAppend(a: string, b: string)
    ensures ToLower(a + b) == ToLower(a) + ToLower(b)
  {
  }

  /** strings.Join with a one-character separator. */
  function Join(parts: seq<string>, sep: char): string
    decreases |parts|
  {
    if |parts| == 0 then ""
    else if |parts| == 1 then parts[0]
    else parts[0] + [sep] + Join(parts[1..], sep)
  }

  lemma JoinCons(first: string, rest: seq<string>, sep: char)
    requires |rest| >= 1
    ensures Join([first] + rest, sep) == first + [sep] + Join(rest, sep)
  {
    assert ([first] + rest)[1..] == rest;
  }

  lemma {:induction false} JoinSnoc(parts: seq<string>, last: string, sep: char)
    requires |parts| >= 1
    ensures Join(parts + [last], sep) == Join(parts, sep) + [sep] + last
    decreases |parts|
  {
    if |parts| == 1 {
      JoinCons(parts[0], [last], sep);
      assert parts + [last] == [parts[0]] + [last];
    } else {
      JoinSnoc(parts[1..], last, sep);
      JoinCons(parts[0], parts[1..] + [last], sep);
      assert parts + [last] == [parts[0]] + (parts[1..] + [last]);
    }
  }

  /** strings.Split with a one-character separator: the pieces between separators,
      never fewer than one, and gluing them back gives `s`. */
  function Split(s: string, sep: char): (parts: seq<string>)
    ensures |parts| >= 1
    ensures forall i :: 0 <= i < |parts| ==> sep !in parts[i]
    ensures Join(parts, sep) == s
    decreases |s|
  {
    if |s| == 0 then [""]
    else
      var rest := Split(s[1..], sep);
      if s[0] == sep then
        assert Join([""] + rest, sep) == [sep] + Join(rest, sep) by {
          assert ([""] + rest)[1..] == rest;
        }
        assert s == [sep] + s[1..];
        [""] + rest
      else
        var parts := [[s[0]] + rest[0]] + rest[1..];
        assert Join(parts, sep) == s by {
          if |rest| > 1 {
            assert parts[1..] == rest[1..];
            assert Join(rest, sep) == rest[0] + [sep] + Join(rest[1..], sep);
          }
          assert s == [s[0]] + s[1..];
        }
        parts
  }

  lemma {:induction false} SplitSingle(w: string, sep: char)
    requires sep !in w
    ensures Split(w, sep) == [w]
    decreases |w|
  {
    if |w| > 0 {
      SplitSingle(w[1..], sep);
      assert [w[0]] + w[1..] == w;
    }
  }

  lemma {:induction false} SplitCons(w: string, sep: char, t: string)
    requires sep !in w
    ensures Split(w + [sep] + t, sep) == [w] + Split(t, sep)
    decreases |w|
  {
    var s := w + [sep] + t;
    if |w| == 0 {
      assert s[1..] == t;
    } else {
      assert s[1..] == w[1..] + [sep] + t;
      SplitCons(w[1..], sep, t);
      assert [w[0]] + w[1..] == w;
    }
  }

  /** Splitting undoes joining when no piece contains the separator. */
  lemma {:induction false} SplitJoin(parts: seq<string>, sep: char)
    requires |parts| >= 1
    requires forall i :: 0 <= i < |parts| ==> sep !in parts[i]
    ensures Split(Join(parts, sep), sep) == parts
    decreases |parts|
  {
    if |parts| == 1 {
      SplitSingle(parts[0], sep);
    } else {
      SplitJoin(parts[1..], sep);
      SplitCons(parts[0], sep, Join(parts[1..], sep));
      assert [parts[0]] + parts[1..] == parts;
    }
  }

  /** Splitting yields one piece more than there are separators. */
  lemma {:induction false} SplitCount(s: string, sep: char)
    ensures |Split(s, sep)| == multiset(s)[sep] + 1
    decreases |s|
  {
    if |s| > 0 {
      SplitCount(s[1..], sep);
      SplitLengthStep(s, sep);
      CountStep(s, sep);
    }
  }

  lemma SplitLengthStep(s: string, sep: char)
    requires |s| > 0
    ensures |Split(s, sep)| == |Split(s[1..], sep)| + (if s[0] == sep then 1 else 0)
  {
  }

  lemma CountStep(s: string, c: char)
    requires |s| > 0
    ensures multiset(s)[c] == multiset(s[1..])[c] + (if s[0] == c then 1 else 0)
  {
    assert s == [s[0]] + s[1..];
    assert multiset(s) == multiset([s[0]]) + multiset(s[1..]);
  }

  /** Joining puts one separator between neighbours, on top of those inside the parts. */
  lemma {:induction false} JoinCountsSeparators(parts: seq<string>, sep: char, i: nat)
    requires i < |parts|
    ensures multiset(Join(parts, sep))[sep] >= |parts| - 1 + multiset(parts[i])[sep]
    decreases |parts|
  {
    if |parts| > 1 {
      JoinCons(parts[0], parts[1..], sep);
      assert [parts[0]] + parts[1..] == parts;
      if i == 0 {
        JoinCountsSeparators(parts[1..], sep, 0);
      } else {
        JoinCountsSeparators(parts[1..], sep, i - 1);
      }
    }
  }

  /** The text before and after the first occurrence of `sep`, or None when it
      does not occur. The helper behind `Security.FirstLine`, which stands for
      the first piece of `strings.Split`, and behind reading `key=value` words. */
  function Cut(s: string, sep: char): (r: Option<(string, string)>)
    ensures r.None? <==> sep !in s
    ensures r.Some? ==> s == r.value.0 + [sep] + r.value.1 && sep !in r.value.0
    decreases |s|
  {
    if |s| == 0 then None
    else if s[0] == sep then Some(([], s[1..]))
    else
      match Cut(s[1..], sep)
      case None => None
      case Some((before, after)) => Some(([s[0]] + before, after))
  }

  /** The first separator is found wherever the text before it has none. */
  lemma {:induction false} CutAt(before: string, sep: char, after: string)
    requires sep !in before
    ensures Cut(before + [sep] + after, sep) == Some((before, after))
    decreases |before|
  {
    var s := before + [sep] + after;
    if |before| == 0 {
      assert s[1..] == after;
    } else {
      assert s[1..] == before[1..] + [sep] + after;
      CutAt(before[1..], sep, after);
      assert [before[0]] + before[1..] == before;
    }
  }

  /** strings.LastIndex for a one-character needle: -1 when absent, otherwise the
      position of its last occurrence. */
  function LastIndex(s: string, c: char): (r: int)
    ensures -1 <= r < |s|
    ensures r >= 0 ==> s[r] == c
    ensures forall j :: r < j < |s| ==> s[j] != c
    decreases |s|
  {
    if |s| == 0 then -1
    else if s[|s| - 1] == c then |s| - 1
    else LastIndex(s[..|s| - 1], c)
  }

  /** The last occurrence lies in the second part whenever that part holds one. */
  lemma LastIndexAppend(a: string, b: string, c: char)
    requires c in b
    ensures LastIndex(a + b, c) == |a| + LastIndex(b, c)
  {
    var r := LastIndex(a + b, c);
    var q := LastIndex(b, c);
    assert q >= 0;
    assert (a + b)[|a| + q] == c;
  }

  /** A character found only at the front has its last occurrence there. */
  lemma LastIndexOnlyAtFront(s: string, c: char)
    requires |s| > 0 && s[0] == c
    requires forall j :: 1 <= j < |s| ==> s[j] != c
    ensures LastIndex(s, c) == 0
  {
  }

  /** strings.ReplaceAll(s, pattern, ""): every non-overlapping occurrence of
      `pattern`, scanning left to right, is deleted. The result is `s` itself
      exactly when `pattern` does not occur, and strictly shorter otherwise. An
      empty `pattern` matches between characters and deleting it changes nothing. */
  function RemoveAll(s: string, pattern: string): (r: string)
    ensures |r| <= |s|
    ensures |pattern| > 0 ==> (r == s <==> !Contains(s, pattern))
    ensures |pattern| == 0 ==> r == s
    ensures r != s ==> |r| < |s|
    decreases |s|
  {
    if |pattern| == 0 then s
    else if |s| < |pattern| then
      assert !Contains(s, pattern) by { ShortNoContains(s, pattern); }
      s
    else if HasPrefix(s, pattern) then
      RemoveAll(s[|pattern|..], pattern)
    else
      var r := [s[0]] + RemoveAll(s[1..], pattern);
      assert r == s <==> RemoveAll(s[1..], pattern) == s[1..] by {
        assert s == [s[0]] + s[1..];
        if r == s { assert r[1..] == s[1..]; }
      }
      r
  }

  lemma {:induction false} ShortNoContains(s: string, sub: string)
    requires |s| < |sub|
    ensures !Contains(s, sub)
    decreases |s|
  {
    if |s| > 0 { ShortNoContains(s[1..], sub); }
  }

  /** Deleting an occurrence at the very front. */
  lemma RemoveAllAtFront(b: string, pattern: string)
    requires |pattern| > 0
    ensures RemoveAll(pattern + b, pattern) == RemoveAll(b, pattern)
  {
    assert (pattern + b)[..|pattern|] == pattern;
    assert (pattern + b)[|pattern|..] == b;
  }

  /** A prefix that holds no first character of `pattern` is kept as it is. */
  lemma {:induction false} RemoveAllKeepsPrefix(a: string, b: string, pattern: string)
    requires |pattern| > 0 && pattern[0] !in a
    ensures RemoveAll(a + b, pattern) == a + RemoveAll(b, pattern)
    decreases |a|
  {
    var s := a + b;
    if |a| > 0 && |s| < |pattern| {
      ShortNoContains(b, pattern);
    } else if |a| > 0 {
      assert s[0] == a[0];
      assert !HasPrefix(s, pattern) by {
        if |pattern| <= |s| { assert s[..|pattern|][0] == a[0]; }
      }
      assert s[1..] == a[1..] + b;
      RemoveAllKeepsHead(s, pattern);
      RemoveAllKeepsPrefix(a[1..], b, pattern);
      calc {
        RemoveAll(s, pattern);
        [a[0]] + RemoveAll(a[1..] + b, pattern);
        [a[0]] + (a[1..] + RemoveAll(b, pattern));
        { assert [a[0]] + a[1..] == a; }
        a + RemoveAll(b, pattern);
      }
    } else {
      assert s == b;
    }
  }

  /** The first character stays when no occurrence starts there. */
  lemma RemoveAllKeepsHead(s: string, pattern: string)
    requires |pattern| > 0 && |s| > 0 && !HasPrefix(s, pattern)
    ensures RemoveAll(s, pattern) == [s[0]] + RemoveAll(s[1..], pattern)
  {
  }

  /** Nothing is deleted when some character of `pattern` never occurs in `s`. */
  lemma RemoveAllUnchanged(s: string, pattern: string, k: nat)
    requires k < |pattern| && pattern[k] !in s
    ensures RemoveAll(s, pattern) == s
  {
    ContainsNeedsChar(s, pattern, k);
  }

  /** A piece that starts off like `pattern` but differs from it at position `m`,
      and holds no further first character of `pattern`, is kept as it is. */
  lemma RemoveAllMismatch(a: string, b: string, pattern: string, m: nat)
    requires 0 < m < |pattern| && m < |a| && a[m] != pattern[m]
    requires pattern[0] !in a[1..]
    ensures RemoveAll(a + b, pattern) == a + RemoveAll(b, pattern)
  {
    var s := a + b;
    assert RemoveAll(s, pattern) == [a[0]] + RemoveAll(a[1..] + b, pattern) by {
      MismatchNotPrefix(s, pattern, m);
      RemoveAllKeepsHead(s, pattern);
      assert s[1..] == a[1..] + b;
    }
    assert RemoveAll(a[1..] + b, pattern) == a[1..] + RemoveAll(b, pattern) by {
      RemoveAllKeepsPrefix(a[1..], b, pattern);
    }
    assert [a[0]] + a[1..] == a;
  }

  /** Deleting the one occurrence of `p`, when its first character occurs nowhere else. */
  lemma RemoveAllSingle(a: string, p: string, b: string)
    requires |p| > 0 && p[0] !in a && p[0] !in b
    ensures RemoveAll(a + (p + b), p) == a + b
  {
    RemoveAllKeepsPrefix(a, p + b, p);
    RemoveAllAtFront(b, p);
    RemoveAllUnchanged(b, p, 0);
  }

  lemma MismatchNotPrefix(s: string, pattern: string, m: nat)
    requires m < |pattern| && m < |s| && s[m] != pattern[m]
    ensures !HasPrefix(s, pattern)
  {
    if |pattern| <= |s| {
      assert s[..|pattern|][m] == s[m];
    }
  }

  /** Wherever `p` occurs, its tail occurs too. */
  lemma {:induction false} ContainsTail(s: string, p: string)
    requires |p| > 0 && Contains(s, p)
    ensures Contains(s, p[1..])
    decreases |s|
  {
    if HasPrefix(s, p) {
      assert s[1..][..|p| - 1] == s[..|p|][1..];
      ContainsAt(s, p[1..], 1);
    } else {
      ContainsTail(s[1..], p);
    }
  }

  /** A decimal digit character. */
  predicate IsDigit(c: char) {
    '0' <= c <= '9'
  }

  /** The value of one decimal digit character. */
  function DigitValue(c: char): nat
    requires IsDigit(c)
  {
    c as int - '0' as int
  }

  /** The character that writes digit `d`, read back by DigitValue. */
  function DigitChar(d: nat): (c: char)
    requires d < 10
    ensures IsDigit(c) && DigitValue(c) == d
  {
    (d + '0' as int) as char
  }

  /** Digit `d` is written as the d-th character of "0123456789". */
  lemma DigitCharTable(d: nat)
    requires d < 10
    ensures DigitChar(d) == "0123456789"[d]
  {
  }

  /** The decimal rendering of a natural number, without sign or leading zeros. */
  function FormatNat(n: nat): (r: string)
    ensures |r| >= 1
    ensures forall i :: 0 <= i < |r| ==> IsDigit(r[i])
    ensures |r| > 1 ==> r[0] != '0'
    decreases n
  {
    if n < 10 then [DigitChar(n)] else FormatNat(n / 10) + [DigitChar(n % 10)]
  }

  /** The value of a string of decimal digits. */
  function DigitsValue(s: string): nat
    requires forall i :: 0 <= i < |s| ==> IsDigit(s[i])
    decreases |s|
  {
    if |s| == 0 then 0
    else
      assert IsDigit(s[|s| - 1]);
      10 * DigitsValue(s[..|s| - 1]) + DigitValue(s[|s| - 1])
  }

  lemma {:induction false} DigitsValueOfFormat(n: nat)
    ensures DigitsValue(FormatNat(n)) == n
    decreases n
  {
    if n >= 10 {
      var r := FormatNat(n);
      assert r[..|r| - 1] == FormatNat(n / 10);
      DigitsValueOfFormat(n / 10);
    }
  }

  /** fmt's `%d` verb on an integer: a minus sign for negatives, then the digits. */
  function FormatInt(n: int): (r: string)
    ensures |r| >= 1 && ' ' !in r && '=' !in r && '\n' !in r && ',' !in r
    ensures n >= 0 <==> IsDigit(r[0])
  {
    var r := if n < 0 then "-" + FormatNat(-n) else FormatNat(n);
    assert forall i :: 0 < i < |r| ==> IsDigit(r[i]);
    r
  }

  /** Reads back what FormatInt writes; anything else is rejected. */
  function ParseInt(s: string): Option<int> {
    if |s| >= 2 && s[0] == '-' && forall i :: 1 <= i < |s| ==> IsDigit(s[i]) then
      var v: int := DigitsValue(s[1..]);
      Some(-v)
    else if |s| >= 1 && forall i :: 0 <= i < |s| ==> IsDigit(s[i]) then
      Some(DigitsValue(s))
    else
      None
  }

  lemma ParseFormatInt(n: int)
    ensures ParseInt(FormatInt(n)) == Some(n)
  {
    if n < 0 {
      ParseNegative(-n);
    } else {
      ParseNatural(n);
    }
  }

  lemma ParseNatural(n: nat)
    ensures ParseInt(FormatNat(n)) == Some(n)
  {
    DigitsValueOfFormat(n);
  }

  lemma ParseNegative(n: nat)
    requires n > 0
    ensures ParseInt("-" + FormatNat(n)) == Some(-(n as int))
  {
    var r := "-" + FormatNat(n);
    assert r[1..] == FormatNat(n);
    DigitsValueOfFormat(n);
  }
}

=== FILE: security.dfy ===
/** The upload-safety helpers of security_test.go: filename and extension checks,
    a first-line CSV content check and the pattern-deleting input sanitizer. Strings are sequences of characters; every
    literal here is ASCII, so a character stands for one byte of the Go string. */
module Security {
  import opened GoStrings

  /** The longest accepted filename, in bytes. */
  const MaxFilenameLength := 255

  /** Fragments that make a filename unsafe wherever they occur. */
  const FilenamePatterns: seq<string> := ["../", "..\\", "\0", "<", ">", ":", "\"", "|", "?", "*"]

  /** Windows device names, compared with the lowercased name up to its last dot. */
  const ReservedNames: seq<string> :=
    ["con", "prn", "aux", "nul", "com1", "com2", "com3", "com4", "com5",
     "com6", "com7", "com8", "com9", "lpt1", "lpt2", "lpt3", "lpt4", "lpt5",
     "lpt6", "lpt7", "lpt8", "lpt9"]

  /** Executable and script extensions, compared with the lowercased name. */
  const DangerousExtensions: seq<string> :=
    [".exe", ".bat", ".cmd", ".com", ".scr", ".vbs", ".js", ".jar",
     ".app", ".deb", ".pkg", ".dmg", ".sh", ".ps1"]

  /** Extensions of an acceptable upload. */
  const ValidExtensions: seq<string> := [".csv", ".txt"]

  // ---------------------------------------------------------------------------
  // hasValidCSVExtension

  /** The lowercased filename ends with one of the valid extensions. */
  predicate HasValidCsvExtension(filename: string) {
    exists ext :: ext in ValidExtensions && HasSuffix(ToLower(filename), ext)
  }

  /** The extension check accepts exactly the names whose lowercase form ends in
      ".csv" or ".txt". */
  lemma ValidCsvExtensionIff(filename: string)
    ensures HasValidCsvExtension(filename)
      <==> HasSuffix(ToLower(filename), ".csv") || HasSuffix(ToLower(filename), ".txt")
  {
    var lower := ToLower(filename);
    if HasSuffix(lower, ".csv") {
      assert ".csv" in ValidExtensions;
    } else if HasSuffix(lower, ".txt") {
      assert ".txt" in ValidExtensions;
    }
  }

  /** Appending ".csv" or ".txt", in any letter case, to any stem gives an accepted name. */
  lemma ValidCsvExtensionOfStem(stem: string, ext: string)
    requires ToLower(ext) == ".csv" || ToLower(ext) == ".txt"
    ensures HasValidCsvExtension(stem + ext)
  {
    ToLowerAppend(stem, ext);
    var lower := ToLower(stem + ext);
    assert lower[|lower| - |ext|..] == ToLower(ext);
    assert ToLower(ext) in ValidExtensions;
  }

  /** Letter case does not matter to the extension check. */
  lemma ValidCsvExtensionIgnoresCase(filename: string)
    ensures HasValidCsvExtension(ToLower(filename)) == HasValidCsvExtension(filename)
  {
    ToLowerIdempotent(filename);
  }

  // ---------------------------------------------------------------------------
  // isValidCSVContent

  /** The text before the first line feed: the longest prefix without one. */
  function FirstLine(content: string): (line: string)
    ensures HasPrefix(content, line) && '\n' !in line
    ensures |line| < |content| ==> content[|line|] == '\n'
  {
    match Cut(content, '\n')
    case None => content
    case Some((before, _)) => before
  }

  /** The first element strings.Split returns is the text before the first line feed. */
  lemma {:induction false} SplitFirstLine(content: string)
    ensures Split(content, '\n')[0] == FirstLine(content)
    decreases |content|
  {
    match Cut(content, '\n')
    case None =>
      SplitSingle(content, '\n');
    case Some((before, after)) =>
      SplitCons(before, '\n', after);
  }

  lemma FirstLineOf(line: string, rest: string)
    requires '\n' !in line
    ensures FirstLine(line + "\n" + rest) == line
  {
    CutAt(line, '\n', rest);
    assert line + ['\n'] + rest == line + "\n" + rest;
  }

  /** The first line contains a comma or the header name "todo_name". The
      `len(lines) < 1` guard never fires: splitting yields at least one element. */
  predicate IsValidCsvContent(content: string) {
    var lines := Split(content, '\n');
    if |lines| < 1 then false
    else Contains(lines[0], ",") || Contains(lines[0], "todo_name")
  }

  /** The content check looks only at the text before the first line feed. */
  lemma ValidCsvContentIff(content: string)
    ensures IsValidCsvContent(content)
      <==> Contains(FirstLine(content), ",") || Contains(FirstLine(content), "todo_name")
  {
    SplitFirstLine(content);
  }

  /** Whatever follows the first line feed is ignored. */
  lemma ValidCsvContentOfFirstLine(line: string, rest: string)
    requires '\n' !in line
    ensures IsValidCsvContent(line + "\n" + rest) <==> IsValidCsvContent(line)
  {
    CutAt(line, '\n', rest);
    assert line + ['\n'] + rest == line + "\n" + rest;
    ValidCsvContentIff(line + "\n" + rest);
    ValidCsvContentIff(line);
  }

  // ---------------------------------------------------------------------------
  // isValidFilename

  /** The lowercased name with everything from its last dot removed. */
  function BaseName(filename: string): string {
    var lower := ToLower(filename);
    var idx := LastIndex(lower, '.');
    if idx != -1 then lower[..idx] else lower
  }

  /** The base name is the lowercased name up to its last dot, which is
      followed by no other dot; a name without a dot is its own base name. */
  lemma BaseNameSplitsAtLastDot(filename: string)
    ensures var lower, base := ToLower(filename), BaseName(filename);
      && ('.' in lower ==> HasPrefix(lower, base + ".") && '.' !in lower[|base| + 1..])
      && ('.' !in lower ==> base == lower)
  {
    SplitAtLastDot(ToLower(filename));
  }

  lemma SplitAtLastDot(lower: string)
    ensures var idx := LastIndex(lower, '.');
      && (idx != -1 ==> HasPrefix(lower, lower[..idx] + ".") && '.' !in lower[idx + 1..])
      && (idx == -1 ==> '.' !in lower)
  {
    var idx := LastIndex(lower, '.');
    if idx != -1 {
      assert lower[..idx + 1] == lower[..idx] + ".";
      var rest := lower[idx + 1..];
      forall j | 0 <= j < |rest| ensures rest[j] != '.' {
        assert rest[j] == lower[idx + 1 + j];
      }
    } else {
      forall j | 0 <= j < |lower| ensures lower[j] != '.' {
      }
    }
  }

  /** The five checks of isValidFilename, in order: not empty, at most 255 bytes,
      no unsafe fragment, not a reserved device name, no executable extension. */
  predicate IsValidFilename(filename: string) {
    if filename == "" then false
    else if |filename| > MaxFilenameLength then false
    else if HasUnsafeFragment(filename) then false
    else if IsReservedName(filename) then false
    else !HasDangerousExtension(filename)
  }

  predicate HasUnsafeFragment(filename: string) {
    exists p :: p in FilenamePatterns && Contains(filename, p)
  }

  predicate IsReservedName(filename: string) {
    exists r :: r in ReservedNames && BaseName(filename) == r
  }

  predicate HasDangerousExtension(filename: string) {
    exists ext :: ext in DangerousExtensions && HasSuffix(ToLower(filename), ext)
  }

  /** An accepted name is non-empty and at most 255 bytes long. */
  lemma ValidFilenameLength(filename: string)
    requires IsValidFilename(filename)
    ensures 0 < |filename| <= MaxFilenameLength
  {
  }

  /** A name holding a path traversal, a NUL or a shell metacharacter is rejected. */
  lemma FilenamePatternRejected(filename: string, p: string)
    requires p in FilenamePatterns && Contains(filename, p)
    ensures !IsValidFilename(filename)
  {
  }

  /** A device name, in any letter case, alone or followed by one extension, is
      rejected. */
  lemma ReservedNameRejected(name: string, ext: string)
    requires ToLower(name) in ReservedNames
    requires ext == "" || (ext[0] == '.' && '.' !in ext[1..])
    ensures !IsValidFilename(name + ext)
  {
    ReservedNamesHaveNoDot();
    BaseNameOfStem(name, ext);
    ReservedBaseRejected(name + ext);
  }

  lemma ReservedNamesHaveNoDot()
    ensures forall r :: r in ReservedNames ==> '.' !in r
  {
  }

  /** Every device name has three or four letters and starts with c, p, a, n or l. */
  lemma ReservedNameShape()
    ensures forall r :: r in ReservedNames ==> 3 <= |r| <= 4 && r[0] in "cpanl"
  {
  }

  lemma ReservedBaseRejected(filename: string)
    requires BaseName(filename) in ReservedNames
    ensures !IsValidFilename(filename)
  {
  }

  /** Stripping a single extension from a dot-free stem leaves the lowercased stem. */
  lemma BaseNameOfStem(stem: string, ext: string)
    requires '.' !in ToLower(stem)
    requires ext == "" || (ext[0] == '.' && '.' !in ext[1..])
    ensures BaseName(stem + ext) == ToLower(stem)
  {
    if ext == "" {
      assert stem + ext == stem;
      SplitAtLastDot(ToLower(stem));
    } else {
      var ls, lext := ToLower(stem), ToLower(ext);
      ToLowerAppend(stem, ext);
      ExtensionDotFirst(ext);
      LastIndexAppend(ls, lext, '.');
      BaseNameOfLowered(stem + ext, ls, lext);
    }
  }

  /** An extension's only dot is its first character. */
  lemma ExtensionDotFirst(ext: string)
    requires |ext| > 0 && ext[0] == '.' && '.' !in ext[1..]
    ensures LastIndex(ToLower(ext), '.') == 0
  {
    var lext := ToLower(ext);
    forall j | 1 <= j < |lext| ensures lext[j] != '.' {
      assert ext[1..][j - 1] == ext[j];
    }
    LastIndexOnlyAtFront(lext, '.');
  }

  /** A name whose lowercase form ends in an executable extension is rejected. */
  lemma DangerousExtensionRejected(stem: string, ext: string)
    requires ToLower(ext) in DangerousExtensions
    ensures !IsValidFilename(stem + ext)
  {
    ToLowerAppend(stem, ext);
    var lower := ToLower(stem + ext);
    assert lower[|lower| - |ext|..] == ToLower(ext);
    assert HasSuffix(lower, ToLower(ext));
  }

  /** Characters an ordinary spreadsheet name is made of. */
  predicate PlainFilenameChar(c: char) {
    'a' <= c <= 'z' || 'A' <= c <= 'Z' || '0' <= c <= '9' || c == '-' || c == '_' || c == ' ' || c == '.'
  }

  /** Every name made of letters, digits, '-', '_', spaces and dots, followed by
      ".csv", is accepted when it fits in 255 bytes and its stem is not a device
      name. */
  lemma PlainCsvNameAccepted(stem: string)
    requires |stem| + 4 <= MaxFilenameLength
    requires forall c :: c in stem ==> PlainFilenameChar(c)
    requires ToLower(stem) !in ReservedNames
    ensures IsValidFilename(stem + ".csv")
  {
    var f := stem + ".csv";
    PlainNameHasNoPattern(stem);
    assert !IsReservedName(f) by { BaseNameOfCsv(stem); }
    LowerCsvSuffix(stem);
    CsvNameNotDangerous(f);
  }

  lemma LowerCsvSuffix(stem: string)
    ensures HasSuffix(ToLower(stem + ".csv"), ".csv")
  {
    ToLowerAppend(stem, ".csv");
    assert ToLower(".csv") == ".csv";
    var lower := ToLower(stem + ".csv");
    assert lower[|lower| - 4..] == ".csv";
  }

  lemma PlainNameHasNoPattern(stem: string)
    requires forall c :: c in stem ==> PlainFilenameChar(c)
    ensures !HasUnsafeFragment(stem + ".csv")
  {
    var f := stem + ".csv";
    forall p | p in FilenamePatterns
      ensures !Contains(f, p)
    {
      var k := if p == "../" || p == "..\\" then 2 else 0;
      ContainsNeedsChar(f, p, k);
    }
  }

  lemma BaseNameOfCsv(stem: string)
    ensures BaseName(stem + ".csv") == ToLower(stem)
  {
    LowerCsvName(stem);
    LastDotOfCsv(ToLower(stem));
    BaseNameOfLowered(stem + ".csv", ToLower(stem), ".csv");
  }

  lemma LowerCsvName(stem: string)
    ensures ToLower(stem + ".csv") == ToLower(stem) + ".csv"
  {
    ToLowerAppend(stem, ".csv");
    assert ToLower(".csv") == ".csv";
  }

  lemma LastDotOfCsv(ls: string)
    ensures LastIndex(ls + ".csv", '.') == |ls|
  {
    CsvExtensionDot();
    LastIndexAppend(ls, ".csv", '.');
  }

  /** A name whose lowercase form is `base` followed by an extension starting at its last dot. */
  lemma BaseNameOfLowered(filename: string, base: string, ext: string)
    requires ToLower(filename) == base + ext && LastIndex(base + ext, '.') == |base|
    ensures BaseName(filename) == base
  {
    assert (base + ext)[..|base|] == base;
  }

  lemma CsvExtensionDot()
    ensures '.' in ".csv" && LastIndex(".csv", '.') == 0
  {
    var r := LastIndex(".csv", '.');
    assert ".csv"[0] == '.';
  }

  lemma CsvNameNotDangerous(filename: string)
    requires HasSuffix(ToLower(filename), ".csv")
    ensures !HasDangerousExtension(filename)
  {
    var lower := ToLower(filename);
    assert lower[|lower| - 1] == 'v' by {
      assert lower[|lower| - 4..][3] == lower[|lower| - 1];
    }
    forall ext | ext in DangerousExtensions
      ensures !HasSuffix(lower, ext)
    {
    }
  }

  /** The accepted rows of the filename table in security_test.go. */
  lemma AcceptedFilenameCases()
    ensures IsValidFilename("data.csv")
    ensures IsValidFilename("my-data_file.csv")
    ensures IsValidFilename("data with spaces.csv")
    ensures IsValidFilename(".csv")
  {
    AcceptedStem("data");
    assert "data" + ".csv" == "data.csv";
    AcceptedStem("my-data_file");
    assert "my-data_file" + ".csv" == "my-data_file.csv";
    AcceptedStem("data with spaces");
    assert "data with spaces" + ".csv" == "data with spaces.csv";
    AcceptedStem("");
    assert "" + ".csv" == ".csv";
  }

  /** A lowercase plain stem that cannot be a device name, by its length or its
      first letter, makes an accepted ".csv" name. */
  lemma AcceptedStem(stem: string)
    requires |stem| + 4 <= MaxFilenameLength
    requires forall c :: c in stem ==> PlainFilenameChar(c) && !('A' <= c <= 'Z')
    requires |stem| < 3 || |stem| > 4 || stem[0] !in "cpanl"
    ensures IsValidFilename(stem + ".csv")
  {
    ToLowerNoCapitals(stem);
    ReservedNameShape();
    PlainCsvNameAccepted(stem);
  }

  /** Rejected rows of the filename table in security_test.go: unsafe fragments. */
  lemma UnsafeFragmentCases()
    ensures !IsValidFilename("../../../etc/passwd")
    ensures !IsValidFilename("data\0.csv")
    ensures !IsValidFilename("data<script>.csv")
  {
    UnsafeFragmentAt("../../../etc/passwd", "../", 0);
    UnsafeFragmentAt("data\0.csv", "\0", 4);
    UnsafeFragmentAt("data<script>.csv", "<", 4);
  }

  lemma UnsafeFragmentAt(filename: string, p: string, i: nat)
    requires p in FilenamePatterns && i <= |filename| && HasPrefix(filename[i..], p)
    ensures !IsValidFilename(filename)
  {
    ContainsAt(filename, p, i);
  }

  /** Rejected rows of the filename table in security_test.go: too long and empty. */
  lemma LengthCases()
    ensures !IsValidFilename(seq(300, _ => 'a') + ".csv")
    ensures !IsValidFilename("")
  {
    assert |seq(300, _ => 'a') + ".csv"| == 304;
  }

  /** Rejected rows of the filename table in security_test.go: executable extensions. */
  lemma ExecutableCases()
    ensures !IsValidFilename("normal.exe")
    ensures !IsValidFilename("data.csv.exe")
  {
    ToLowerNoCapitals(".exe");
    DangerousExtensionRejected("normal", ".exe");
    assert "normal" + ".exe" == "normal.exe";
    DangerousExtensionRejected("data.csv", ".exe");
    assert "data.csv" + ".exe" == "data.csv.exe";
  }

  /** Rejected rows of the filename table in security_test.go: device names. */
  lemma ReservedNameCases()
    ensures !IsValidFilename("con.csv") && !IsValidFilename("prn.csv")
    ensures !IsValidFilename("aux.csv") && !IsValidFilename("nul.csv")
  {
    ReservedCsv("con");
    assert "con" + ".csv" == "con.csv";
    ReservedCsv("prn");
    assert "prn" + ".csv" == "prn.csv";
    ReservedCsv("aux");
    assert "aux" + ".csv" == "aux.csv";
    ReservedCsv("nul");
    assert "nul" + ".csv" == "nul.csv";
  }

  lemma ReservedCsv(name: string)
    requires name in ["con", "prn", "aux", "nul"]
    ensures !IsValidFilename(name + ".csv")
  {
    ToLowerNoCapitals(name);
    ReservedNameRejected(name, ".csv");
  }

  /** A name ending neither in 'v' nor in "xt" has no valid extension. */
  lemma NoValidExtension(filename: string)
    requires forall c :: c in filename ==> !('A' <= c <= 'Z')
    requires |filename| >= 2 && filename[|filename| - 1] != 'v'
    requires filename[|filename| - 1] != 't' || filename[|filename| - 2] != 'x'
    ensures !HasValidCsvExtension(filename)
  {
    ToLowerNoCapitals(filename);
    ValidCsvExtensionIff(filename);
  }

  /** The extensions of the file-type table in security_test.go. */
  lemma ExtensionCases()
    ensures HasValidCsvExtension("data.csv") && HasValidCsvExtension("data.txt")
    ensures !HasValidCsvExtension("malware.exe")
    ensures !HasValidCsvExtension("script.bat")
    ensures !HasValidCsvExtension("page.html")
  {
    CsvNameExtension();
    TxtNameExtension();
    ExecutableNameExtension();
    ScriptNameExtension();
    PageNameExtension();
  }

  lemma ExecutableNameExtension()
    ensures !HasValidCsvExtension("malware.exe")
  {
    NoValidExtension("malware.exe");
  }

  lemma ScriptNameExtension()
    ensures !HasValidCsvExtension("script.bat")
  {
    NoValidExtension("script.bat");
  }

  lemma PageNameExtension()
    ensures !HasValidCsvExtension("page.html")
  {
    NoValidExtension("page.html");
  }

  lemma CsvNameExtension()
    ensures HasValidCsvExtension("data.csv")
  {
    ToLowerNoCapitals("data.csv");
    assert "data.csv"[4..] == ".csv";
    assert ".csv" in ValidExtensions;
  }

  lemma TxtNameExtension()
    ensures HasValidCsvExtension("data.txt")
  {
    ToLowerNoCapitals("data.txt");
    assert "data.txt"[4..] == ".txt";
    assert ".txt" in ValidExtensions;
  }

  /** The contents of the file-type table in security_test.go: the CSV body passes,
      the executable header and the batch script do not. */
  lemma ContentCases()
    ensures IsValidCsvContent("todo_name,note\nTask 1,Note 1")
    ensures !IsValidCsvContent("MZ\U{90}\0\U{3}\0\0\0")
    ensures !IsValidCsvContent("@echo off\necho Malicious script\npause")
  {
    CsvBodyContent();
    ExecutableHeaderContent();
    BatchScriptContent();
  }

  lemma CsvBodyContent()
    ensures IsValidCsvContent("todo_name,note\nTask 1,Note 1")
  {
    SplitFirstLine("todo_name,note\nTask 1,Note 1");
    CsvBodyFirstLine();
    HeaderHasComma();
  }

  lemma CsvBodyFirstLine()
    ensures FirstLine("todo_name,note\nTask 1,Note 1") == "todo_name,note"
  {
    CsvBodySplit();
    CutAt("todo_name,note", '\n', "Task 1,Note 1");
  }

  lemma CsvBodySplit()
    ensures "todo_name,note" + ['\n'] + "Task 1,Note 1" == "todo_name,note\nTask 1,Note 1"
  {
  }

  lemma HeaderHasComma()
    ensures Contains("todo_name,note", ",")
  {
    ContainsAt("todo_name,note", ",", 9);
  }

  lemma ExecutableHeaderContent()
    ensures !IsValidCsvContent("MZ\U{90}\0\U{3}\0\0\0")
  {
    SplitFirstLine("MZ\U{90}\0\U{3}\0\0\0");
    ExecutableHeaderFirstLine();
    ExecutableHeaderNoHeader();
  }

  lemma ExecutableHeaderFirstLine()
    ensures FirstLine("MZ\U{90}\0\U{3}\0\0\0") == "MZ\U{90}\0\U{3}\0\0\0"
  {
    assert '\n' !in "MZ\U{90}\0\U{3}\0\0\0";
  }

  lemma ExecutableHeaderNoHeader()
    ensures !Contains("MZ\U{90}\0\U{3}\0\0\0", ",")
    ensures !Contains("MZ\U{90}\0\U{3}\0\0\0", "todo_name")
  {
    ContainsNeedsChar("MZ\U{90}\0\U{3}\0\0\0", ",", 0);
    ContainsNeedsChar("MZ\U{90}\0\U{3}\0\0\0", "todo_name", 4);
  }

  lemma BatchScriptContent()
    ensures !IsValidCsvContent("@echo off\necho Malicious script\npause")
  {
    BatchScriptSplit();
    SplitFirstLine("@echo off" + "\n" + "echo Malicious script\npause");
    FirstLineOf("@echo off", "echo Malicious script\npause");
    BatchScriptNoHeader();
  }

  lemma BatchScriptSplit()
    ensures "@echo off" + "\n" + "echo Malicious script\npause" == "@echo off\necho Malicious script\npause"
  {
  }

  lemma BatchScriptNoHeader()
    ensures !Contains("@echo off", ",") && !Contains("@echo off", "todo_name")
  {
    BatchScriptNoComma();
    BatchScriptNoUnderscore();
  }

  lemma BatchScriptNoComma()
    ensures !Contains("@echo off", ",")
  {
    ContainsNeedsChar("@echo off", ",", 0);
  }

  lemma BatchScriptNoUnderscore()
    ensures !Contains("@echo off", "todo_name")
  {
    ContainsNeedsChar("@echo off", "todo_name", 4);
  }

  /** The assertions of the file-type table in security_test.go: an allowed row
      passes the content or the extension check, a refused row fails one of them. */
  lemma FileTypeValidationCases()
    ensures IsValidCsvContent("todo_name,note\nTask 1,Note 1") || HasValidCsvExtension("data.csv")
    ensures IsValidCsvContent("todo_name,note\nTask 1,Note 1") || HasValidCsvExtension("data.txt")
    ensures !(IsValidCsvContent("MZ\U{90}\0\U{3}\0\0\0") && HasValidCsvExtension("malware.exe"))
    ensures !(IsValidCsvContent("@echo off\necho Malicious script\npause") && HasValidCsvExtension("script.bat"))
    ensures !(IsValidCsvContent("<html><head></head><body><script>alert('xss')</script></body></html>")
              && HasValidCsvExtension("page.html"))
  {
    ExtensionCases();
  }

  // ---------------------------------------------------------------------------
  // sanitizeInput

  /** The fragments sanitizeInput deletes, in the order it deletes them. */
  const InputPatterns: seq<string> :=
    ["<script>", "</script>", "<img", "javascript:",
     "DROP TABLE", "DELETE FROM", "INSERT INTO", "UPDATE ",
     "=cmd|", "=system(", "+cmd|",
     "../", "..\\",
     "$(", "`", "${",
     "\0", "\r\n\r\n"]

  lemma InputPatternsNonEmpty()
    ensures forall p :: p in InputPatterns ==> |p| > 0
  {
  }

  /** What is left of `s` once the patterns from position `k` on have each been
      deleted in turn. */
  function SanitizeFrom(s: string, k: nat): (r: string)
    requires k <= |InputPatterns|
    ensures |r| <= |s|
    ensures r != s ==> |r| < |s|
    decreases |InputPatterns| - k
  {
    if k == |InputPatterns| then s
    else SanitizeFrom(RemoveAll(s, InputPatterns[k]), k + 1)
  }

  /** The result of sanitizeInput: every pattern deleted, one pattern after the
      other, each in a single left-to-right pass. */
  function Sanitized(input: string): string {
    SanitizeFrom(input, 0)
  }

  /** sanitizeInput: the loop over the pattern list, deleting each in turn. */
  method SanitizeInput(input: string) returns (sanitized: string)
    ensures sanitized == Sanitized(input)
    ensures |sanitized| <= |input|
  {
    sanitized := input;
    var patterns := InputPatterns;
    var i := 0;
    while i < |patterns|
      invariant patterns == InputPatterns
      invariant 0 <= i <= |patterns|
      invariant SanitizeFrom(sanitized, i) == Sanitized(input)
    {
      sanitized := RemoveAll(sanitized, patterns[i]);
      i := i + 1;
    }
  }

  /** No listed pattern occurs. */
  predicate Clean(s: string) {
    forall p :: p in InputPatterns ==> !Contains(s, p)
  }

  /** The passes from `k` on leave `s` alone exactly when none of their patterns occurs. */
  lemma {:induction false} SanitizeFromUnchangedIff(s: string, k: nat)
    requires k <= |InputPatterns|
    ensures SanitizeFrom(s, k) == s <==> forall j :: k <= j < |InputPatterns| ==> !Contains(s, InputPatterns[j])
    decreases |InputPatterns| - k
  {
    if k < |InputPatterns| {
      InputPatternsNonEmpty();
      assert InputPatterns[k] in InputPatterns;
      var t := RemoveAll(s, InputPatterns[k]);
      if t == s {
        SanitizeFromUnchangedIff(s, k + 1);
      }
    }
  }

  /** sanitizeInput returns its input unchanged exactly when no pattern occurs in it;
      otherwise the result is strictly shorter. */
  lemma SanitizedUnchangedIff(s: string)
    ensures Sanitized(s) == s <==> Clean(s)
    ensures Sanitized(s) != s ==> |Sanitized(s)| < |s|
  {
    SanitizeFromUnchangedIff(s, 0);
    if Clean(s) {
      forall j | 0 <= j < |InputPatterns| ensures !Contains(s, InputPatterns[j]) {
        assert InputPatterns[j] in InputPatterns;
      }
    }
  }

  /** No character of `s` is one of `chars`. */
  predicate Avoids(s: string, chars: string) {
    forall i :: 0 <= i < |s| ==> s[i] !in chars
  }

  lemma AvoidsNotIn(s: string, chars: string, c: char)
    requires Avoids(s, chars) && c in chars
    ensures c !in s
  {
  }

  lemma AvoidsAppend(a: string, b: string, chars: string)
    requires Avoids(a, chars) && Avoids(b, chars)
    ensures Avoids(a + b, chars)
  {
    forall i | 0 <= i < |a + b| ensures (a + b)[i] !in chars {
      if i >= |a| { assert (a + b)[i] == b[i - |a|]; }
    }
  }

  /** The characters some pattern starts with. */
  const PatternHeads: string := "<jDIU=+.$`\0\r"

  lemma PatternHeadsListed()
    ensures forall p :: p in InputPatterns ==> |p| > 0 && p[0] in PatternHeads
  {
  }

  /** Text holding no first character of any pattern is clean. */
  lemma CleanWithoutPatternHeads(s: string)
    requires Avoids(s, PatternHeads)
    ensures Clean(s)
  {
    PatternHeadsListed();
    forall p | p in InputPatterns ensures !Contains(s, p) {
      assert p[0] !in s;
      ContainsNeedsChar(s, p, 0);
    }
  }

  /** A clean text goes through the remaining passes unchanged. */
  lemma CleanUnchangedFrom(s: string, k: nat)
    requires k <= |InputPatterns| && Clean(s)
    ensures SanitizeFrom(s, k) == s
  {
    SanitizeFromUnchangedIff(s, k);
    forall j | k <= j < |InputPatterns| ensures !Contains(s, InputPatterns[j]) {
      assert InputPatterns[j] in InputPatterns;
    }
  }

  /** The patterns by position. */
  lemma PatternsListed()
    ensures InputPatterns[0] == "<script>" && InputPatterns[1] == "</script>"
    ensures InputPatterns[4] == "DROP TABLE" && InputPatterns[8] == "=cmd|"
    ensures InputPatterns[11] == "../" && InputPatterns[13] == "$("
    ensures InputPatterns[16] == "\0"
  {
  }

  /** One pass: the pass over pattern `k` turns `s` into `r`. */
  lemma PassRemoves(s: string, k: nat, r: string)
    requires k < |InputPatterns| && RemoveAll(s, InputPatterns[k]) == r
    ensures SanitizeFrom(s, k) == SanitizeFrom(r, k + 1)
  {
  }

  /** Some character of `p` never occurs in `s`. */
  predicate MissesSomeChar(p: string, s: string)
    decreases |p|
  {
    |p| > 0 && (p[0] !in s || MissesSomeChar(p[1..], s))
  }

  lemma {:induction false} MissesAt(p: string, s: string, m: nat)
    requires m < |p| && p[m] !in s
    ensures MissesSomeChar(p, s)
    decreases m
  {
    if m > 0 && p[0] in s {
      MissesAt(p[1..], s, m - 1);
    }
  }

  /** Deleting a pattern that misses some character of `s` leaves `s` alone. */
  lemma {:induction false} MissesSomeCharUnchanged(p: string, s: string)
    requires MissesSomeChar(p, s)
    ensures RemoveAll(s, p) == s
    decreases |p|
  {
    if p[0] !in s {
      RemoveAllUnchanged(s, p, 0);
    } else {
      MissesSomeCharUnchanged(p[1..], s);
      if Contains(s, p) { ContainsTail(s, p); }
    }
  }

  /** Each pattern from position `k` up to `j` misses some character of `s`. */
  predicate IdleBetween(s: string, k: nat, j: nat)
    requires k <= j <= |InputPatterns|
    decreases j - k
  {
    k == j || (MissesSomeChar(InputPatterns[k], s) && IdleBetween(s, k + 1, j))
  }

  /** Passes whose patterns cannot occur change nothing. */
  lemma {:induction false} IdleBetweenSkips(s: string, k: nat, j: nat)
    requires k <= j <= |InputPatterns| && IdleBetween(s, k, j)
    ensures SanitizeFrom(s, k) == SanitizeFrom(s, j)
    decreases j - k
  {
    if k < j {
      MissesSomeCharUnchanged(InputPatterns[k], s);
      IdleBetweenSkips(s, k + 1, j);
    }
  }

  /** A text with exactly one pattern occurrence, of pattern `k`, and no other
      pattern head: once the passes before `k` are known to be idle, sanitizing
      deletes that occurrence and nothing else, and the result is clean. */
  lemma SingleOccurrenceRemoved(a: string, k: nat, b: string)
    requires k < |InputPatterns|
    requires Avoids(a, PatternHeads) && Avoids(b, PatternHeads)
    requires SanitizeFrom(a + (InputPatterns[k] + b), 0) == SanitizeFrom(a + (InputPatterns[k] + b), k)
    ensures Sanitized(a + (InputPatterns[k] + b)) == a + b
    ensures Clean(a + b)
  {
    var p := InputPatterns[k];
    assert |p| > 0 && p[0] !in a && p[0] !in b by {
      PatternHeadsListed();
      assert p in InputPatterns;
      AvoidsNotIn(a, PatternHeads, p[0]);
      AvoidsNotIn(b, PatternHeads, p[0]);
    }
    assert Clean(a + b) by {
      AvoidsAppend(a, b, PatternHeads);
      CleanWithoutPatternHeads(a + b);
    }
    RemoveAllSingle(a, p, b);
    PassRemoves(a + (p + b), k, a + b);
    CleanUnchangedFrom(a + b, k + 1);
  }

  /** A piece of text that a pass over `p` keeps as it is, whatever follows:
      either it holds no first character of `p`, or it starts with that
      character alone and differs from `p` right after it. */
  predicate Inert(piece: string, p: string)
    requires |p| > 0
  {
    (forall i :: 0 <= i < |piece| ==> piece[i] != p[0])
    || (|piece| > 1 && |p| > 1 && piece[0] == p[0] && piece[1] != p[1]
        && forall i :: 1 <= i < |piece| ==> piece[i] != p[0])
  }

  lemma InertKept(piece: string, rest: string, p: string)
    requires |p| > 0 && Inert(piece, p)
    ensures RemoveAll(piece + rest, p) == piece + RemoveAll(rest, p)
  {
    if forall i :: 0 <= i < |piece| ==> piece[i] != p[0] {
      RemoveAllKeepsPrefix(piece, rest, p);
    } else {
      assert forall i :: 0 <= i < |piece[1..]| ==> piece[1..][i] != p[0];
      RemoveAllMismatch(piece, rest, p, 1);
    }
  }

  // The eight inputs of the input sanitization test. Facts about the literal
  // text of each input are stated piece by piece in a "Shape" lemma; the passes
  // that cannot match are skipped by an "Idle" lemma; the "Case" lemma puts
  // them together.

  /** The "HTML tags" case: both tags go, the text between them stays. */
  lemma OpeningTagRemoved(a: string)
    requires '<' !in a
    ensures RemoveAll("<script>" + (a + "</script>"), "<script>") == a + "</script>"
  {
    RemoveAllAtFront(a + "</script>", "<script>");
    RemoveAllKeepsPrefix(a, "</script>", "<script>");
    ClosingTagKept();
  }

  lemma ClosingTagRemoved(a: string)
    requires '<' !in a
    ensures RemoveAll(a + "</script>", "</script>") == a
  {
    RemoveAllKeepsPrefix(a, "</script>", "</script>");
    ClosingTagAlone();
    assert a + "" == a;
  }

  lemma ClosingTagAlone()
    ensures RemoveAll("</script>", "</script>") == ""
  {
    RemoveAllAtFront("", "</script>");
    assert "</script>" + "" == "</script>";
  }

  /** The pass over "<script>" keeps "</script>". */
  lemma ClosingTagKept()
    ensures RemoveAll("</script>", "<script>") == "</script>"
  {
    assert Inert("</script>", "<script>");
    InertKept("</script>", "", "<script>");
    assert "</script>" + "" == "</script>";
  }

  lemma HtmlTagsShape()
    ensures "<script>alert('xss')</script>" == "<script>" + ("alert('xss')" + "</script>")
  {
  }

  lemma HtmlTagsPieces()
    ensures Avoids("alert('xss')", "<") && Avoids("alert('xss')", PatternHeads)
  {
  }

  lemma HtmlTagsCase()
    ensures Sanitized("<script>alert('xss')</script>") == "alert('xss')"
    ensures Clean("alert('xss')")
  {
    HtmlTagsShape();
    HtmlTagsPieces();
    AvoidsNotIn("alert('xss')", "<", '<');
    OpeningTagRemoved("alert('xss')");
    ClosingTagRemoved("alert('xss')");
    PatternsListed();
    PassRemoves("<script>alert('xss')</script>", 0, "alert('xss')" + "</script>");
    PassRemoves("alert('xss')" + "</script>", 1, "alert('xss')");
    CleanWithoutPatternHeads("alert('xss')");
    CleanUnchangedFrom("alert('xss')", 2);
  }

  /** The passes before the one over "DROP TABLE" cannot match in the "SQL injection" case. */
  lemma SqlInjectionIdle(s: string)
    requires Avoids(s, "i")
    ensures SanitizeFrom(s, 0) == SanitizeFrom(s, 4)
  {
    assert IdleBetween(s, 4, 4);
    MissesAt(InputPatterns[3], s, 7);
    assert IdleBetween(s, 3, 4);
    MissesAt(InputPatterns[2], s, 1);
    assert IdleBetween(s, 2, 4);
    MissesAt(InputPatterns[1], s, 5);
    assert IdleBetween(s, 1, 4);
    MissesAt(InputPatterns[0], s, 4);
    assert IdleBetween(s, 0, 4);
    IdleBetweenSkips(s, 0, 4);
  }

  lemma SqlInjectionShape()
    ensures "'; DROP TABLE events; --" == "'; " + ("DROP TABLE" + " events; --")
    ensures "'; " + " events; --" == "';  events; --"
  {
  }

  lemma SqlInjectionPieces()
    ensures Avoids("'; ", PatternHeads) && Avoids(" events; --", PatternHeads)
    ensures Avoids("'; ", "i") && Avoids("DROP TABLE", "i") && Avoids(" events; --", "i")
  {
  }

  lemma SqlInjectionCase()
    ensures Sanitized("'; DROP TABLE events; --") == "';  events; --"
    ensures Clean("';  events; --")
  {
    SqlInjectionShape();
    SqlInjectionPieces();
    AvoidsAppend("DROP TABLE", " events; --", "i");
    AvoidsAppend("'; ", "DROP TABLE" + " events; --", "i");
    SqlInjectionIdle("'; DROP TABLE events; --");
    PatternsListed();
    SingleOccurrenceRemoved("'; ", 4, " events; --");
  }

  /** The passes before the one over "=cmd|" cannot match in the "Excel formula" case. */
  lemma ExcelFormulaIdle(s: string)
    requires Avoids(s, "Ei")
    ensures SanitizeFrom(s, 0) == SanitizeFrom(s, 8)
  {
    assert IdleBetween(s, 8, 8);
    MissesAt(InputPatterns[7], s, 5);
    assert IdleBetween(s, 7, 8);
    MissesAt(InputPatterns[6], s, 3);
    assert IdleBetween(s, 6, 8);
    MissesAt(InputPatterns[5], s, 1);
    assert IdleBetween(s, 5, 8);
    MissesAt(InputPatterns[4], s, 9);
    assert IdleBetween(s, 4, 8);
    MissesAt(InputPatterns[3], s, 7);
    assert IdleBetween(s, 3, 8);
    MissesAt(InputPatterns[2], s, 1);
    assert IdleBetween(s, 2, 8);
    MissesAt(InputPatterns[1], s, 5);
    assert IdleBetween(s, 1, 8);
    MissesAt(InputPatterns[0], s, 4);
    assert IdleBetween(s, 0, 8);
    IdleBetweenSkips(s, 0, 8);
  }

  lemma ExcelFormulaShape()
    ensures "=cmd|'/c calc'!A1" == "" + ("=cmd|" + "'/c calc'!A1")
    ensures "" + "'/c calc'!A1" == "'/c calc'!A1"
  {
  }

  lemma ExcelFormulaPieces()
    ensures Avoids("", PatternHeads) && Avoids("'/c calc'!A1", PatternHeads)
    ensures Avoids("", "Ei") && Avoids("=cmd|", "Ei") && Avoids("'/c calc'!A1", "Ei")
  {
  }

  lemma ExcelFormulaCase()
    ensures Sanitized("=cmd|'/c calc'!A1") == "'/c calc'!A1"
    ensures Clean("'/c calc'!A1")
  {
    ExcelFormulaShape();
    ExcelFormulaPieces();
    AvoidsAppend("=cmd|", "'/c calc'!A1", "Ei");
    AvoidsAppend("", "=cmd|" + "'/c calc'!A1", "Ei");
    ExcelFormulaIdle("=cmd|'/c calc'!A1");
    PatternsListed();
    SingleOccurrenceRemoved("", 8, "'/c calc'!A1");
  }

  /** The passes before the one over "../" cannot match in the "Path traversal" case. */
  lemma PathTraversalIdle(s: string)
    requires Avoids(s, "m i")
    ensures SanitizeFrom(s, 0) == SanitizeFrom(s, 11)
  {
    assert IdleBetween(s, 11, 11);
    MissesAt(InputPatterns[10], s, 2);
    assert IdleBetween(s, 10, 11);
    MissesAt(InputPatterns[9], s, 6);
    assert IdleBetween(s, 9, 11);
    MissesAt(InputPatterns[8], s, 2);
    assert IdleBetween(s, 8, 11);
    MissesAt(InputPatterns[7], s, 6);
    assert IdleBetween(s, 7, 11);
    MissesAt(InputPatterns[6], s, 6);
    assert IdleBetween(s, 6, 11);
    MissesAt(InputPatterns[5], s, 6);
    assert IdleBetween(s, 5, 11);
    MissesAt(InputPatterns[4], s, 4);
    assert IdleBetween(s, 4, 11);
    MissesAt(InputPatterns[3], s, 7);
    assert IdleBetween(s, 3, 11);
    MissesAt(InputPatterns[2], s, 1);
    assert IdleBetween(s, 2, 11);
    MissesAt(InputPatterns[1], s, 5);
    assert IdleBetween(s, 1, 11);
    MissesAt(InputPatterns[0], s, 4);
    assert IdleBetween(s, 0, 11);
    IdleBetweenSkips(s, 0, 11);
  }

  lemma PathTraversalShape()
    ensures "../../../etc/passwd" == "../" + ("../" + ("../" + "etc/passwd"))
  {
  }

  lemma PathTraversalPieces()
    ensures Avoids("etc/passwd", PatternHeads)
    ensures Avoids("../", "m i") && Avoids("etc/passwd", "m i")
  {
  }

  lemma PathTraversalCase()
    ensures Sanitized("../../../etc/passwd") == "etc/passwd"
    ensures Clean("etc/passwd")
  {
    PathTraversalShape();
    PathTraversalPieces();
    AvoidsAppend("../", "etc/passwd", "m i");
    AvoidsAppend("../", "../" + "etc/passwd", "m i");
    AvoidsAppend("../", "../" + ("../" + "etc/passwd"), "m i");
    PathTraversalIdle("../../../etc/passwd");
    RemoveAllAtFront("../" + ("../" + "etc/passwd"), "../");
    RemoveAllAtFront("../" + "etc/passwd", "../");
    RemoveAllAtFront("etc/passwd", "../");
    AvoidsNotIn("etc/passwd", PatternHeads, '.');
    RemoveAllUnchanged("etc/passwd", "../", 0);
    PatternsListed();
    PassRemoves("../../../etc/passwd", 11, "etc/passwd");
    CleanWithoutPatternHeads("etc/passwd");
    CleanUnchangedFrom("etc/passwd", 12);
  }

  /** The passes before the one over "$(" cannot match in the "Command injection" case. */
  lemma CommandInjectionIdle(s: string)
    requires Avoids(s, ".c=E<")
    ensures SanitizeFrom(s, 0) == SanitizeFrom(s, 13)
  {
    assert IdleBetween(s, 13, 13);
    MissesAt(InputPatterns[12], s, 0);
    assert IdleBetween(s, 12, 13);
    MissesAt(InputPatterns[11], s, 0);
    assert IdleBetween(s, 11, 13);
    MissesAt(InputPatterns[10], s, 1);
    assert IdleBetween(s, 10, 13);
    MissesAt(InputPatterns[9], s, 0);
    assert IdleBetween(s, 9, 13);
    MissesAt(InputPatterns[8], s, 0);
    assert IdleBetween(s, 8, 13);
    MissesAt(InputPatterns[7], s, 5);
    assert IdleBetween(s, 7, 13);
    MissesAt(InputPatterns[6], s, 3);
    assert IdleBetween(s, 6, 13);
    MissesAt(InputPatterns[5], s, 1);
    assert IdleBetween(s, 5, 13);
    MissesAt(InputPatterns[4], s, 9);
    assert IdleBetween(s, 4, 13);
    MissesAt(InputPatterns[3], s, 5);
    assert IdleBetween(s, 3, 13);
    MissesAt(InputPatterns[2], s, 0);
    assert IdleBetween(s, 2, 13);
    MissesAt(InputPatterns[1], s, 0);
    assert IdleBetween(s, 1, 13);
    MissesAt(InputPatterns[0], s, 0);
    assert IdleBetween(s, 0, 13);
    IdleBetweenSkips(s, 0, 13);
  }

  lemma CommandInjectionShape()
    ensures "$(rm -rf /)" == "" + ("$(" + "rm -rf /)")
    ensures "" + "rm -rf /)" == "rm -rf /)"
  {
  }

  lemma CommandInjectionPieces()
    ensures Avoids("", PatternHeads) && Avoids("rm -rf /)", PatternHeads)
    ensures Avoids("", ".c=E<") && Avoids("$(", ".c=E<") && Avoids("rm -rf /)", ".c=E<")
  {
  }

  lemma CommandInjectionCase()
    ensures Sanitized("$(rm -rf /)") == "rm -rf /)"
    ensures Clean("rm -rf /)")
  {
    CommandInjectionShape();
    CommandInjectionPieces();
    AvoidsAppend("$(", "rm -rf /)", ".c=E<");
    AvoidsAppend("", "$(" + "rm -rf /)", ".c=E<");
    CommandInjectionIdle("$(rm -rf /)");
    PatternsListed();
    SingleOccurrenceRemoved("", 13, "rm -rf /)");
  }

  /** The passes before the one over NUL cannot match in the "Null bytes" case; "injection" holds a 'j', so the pass over "javascript:" is ruled out by its ':'. */
  lemma NullByteIdle(s: string)
    requires Avoids(s, "$`.m :<")
    ensures SanitizeFrom(s, 0) == SanitizeFrom(s, 16)
  {
    assert IdleBetween(s, 16, 16);
    MissesAt(InputPatterns[15], s, 0);
    assert IdleBetween(s, 15, 16);
    MissesAt(InputPatterns[14], s, 0);
    assert IdleBetween(s, 14, 16);
    MissesAt(InputPatterns[13], s, 0);
    assert IdleBetween(s, 13, 16);
    MissesAt(InputPatterns[12], s, 0);
    assert IdleBetween(s, 12, 16);
    MissesAt(InputPatterns[11], s, 0);
    assert IdleBetween(s, 11, 16);
    MissesAt(InputPatterns[10], s, 2);
    assert IdleBetween(s, 10, 16);
    MissesAt(InputPatterns[9], s, 6);
    assert IdleBetween(s, 9, 16);
    MissesAt(InputPatterns[8], s, 2);
    assert IdleBetween(s, 8, 16);
    MissesAt(InputPatterns[7], s, 6);
    assert IdleBetween(s, 7, 16);
    MissesAt(InputPatterns[6], s, 6);
    assert IdleBetween(s, 6, 16);
    MissesAt(InputPatterns[5], s, 6);
    assert IdleBetween(s, 5, 16);
    MissesAt(InputPatterns[4], s, 4);
    assert IdleBetween(s, 4, 16);
    MissesAt(InputPatterns[3], s, 10);
    assert IdleBetween(s, 3, 16);
    MissesAt(InputPatterns[2], s, 0);
    assert IdleBetween(s, 2, 16);
    MissesAt(InputPatterns[1], s, 0);
    assert IdleBetween(s, 1, 16);
    MissesAt(InputPatterns[0], s, 0);
    assert IdleBetween(s, 0, 16);
    IdleBetweenSkips(s, 0, 16);
  }

  /** No pass can match in "testinjection". */
  lemma NullByteOutputIdle(s: string)
    requires Avoids(s, "\n\0$`.m :<")
    ensures SanitizeFrom(s, 0) == SanitizeFrom(s, 18)
  {
    assert IdleBetween(s, 18, 18);
    MissesAt(InputPatterns[17], s, 1);
    assert IdleBetween(s, 17, 18);
    MissesAt(InputPatterns[16], s, 0);
    assert IdleBetween(s, 16, 18);
    MissesAt(InputPatterns[15], s, 0);
    assert IdleBetween(s, 15, 18);
    MissesAt(InputPatterns[14], s, 0);
    assert IdleBetween(s, 14, 18);
    MissesAt(InputPatterns[13], s, 0);
    assert IdleBetween(s, 13, 18);
    MissesAt(InputPatterns[12], s, 0);
    assert IdleBetween(s, 12, 18);
    MissesAt(InputPatterns[11], s, 0);
    assert IdleBetween(s, 11, 18);
    MissesAt(InputPatterns[10], s, 2);
    assert IdleBetween(s, 10, 18);
    MissesAt(InputPatterns[9], s, 6);
    assert IdleBetween(s, 9, 18);
    MissesAt(InputPatterns[8], s, 2);
    assert IdleBetween(s, 8, 18);
    MissesAt(InputPatterns[7], s, 6);
    assert IdleBetween(s, 7, 18);
    MissesAt(InputPatterns[6], s, 6);
    assert IdleBetween(s, 6, 18);
    MissesAt(InputPatterns[5], s, 6);
    assert IdleBetween(s, 5, 18);
    MissesAt(InputPatterns[4], s, 4);
    assert IdleBetween(s, 4, 18);
    MissesAt(InputPatterns[3], s, 10);
    assert IdleBetween(s, 3, 18);
    MissesAt(InputPatterns[2], s, 0);
    assert IdleBetween(s, 2, 18);
    MissesAt(InputPatterns[1], s, 0);
    assert IdleBetween(s, 1, 18);
    MissesAt(InputPatterns[0], s, 0);
    assert IdleBetween(s, 0, 18);
    IdleBetweenSkips(s, 0, 18);
  }

  lemma NullByteShape()
    ensures "test\0injection" == "test" + ("\0" + "injection")
    ensures "test" + "injection" == "testinjection"
  {
  }

  lemma NullBytePieces()
    ensures Avoids("test", "$`.m :<") && Avoids("\0", "$`.m :<") && Avoids("injection", "$`.m :<")
  {
  }

  lemma NullByteOutputShape()
    ensures Avoids("test", "\n\0$`.m :<") && Avoids("injection", "\n\0$`.m :<")
  {
  }

  lemma NullByteCase()
    ensures Sanitized("test\0injection") == "testinjection"
    ensures Clean("testinjection")
  {
    NullByteShape();
    NullBytePieces();
    NullByteOutputShape();
    AvoidsAppend("\0", "injection", "$`.m :<");
    AvoidsAppend("test", "\0" + "injection", "$`.m :<");
    NullByteIdle("test\0injection");
    AvoidsNotIn("test", "\n\0$`.m :<", '\0');
    AvoidsNotIn("injection", "\n\0$`.m :<", '\0');
    RemoveAllSingle("test", "\0", "injection");
    PatternsListed();
    PassRemoves("test\0injection", 16, "testinjection");
    AvoidsAppend("test", "injection", "\n\0$`.m :<");
    NullByteOutputIdle("testinjection");
    SanitizedUnchangedIff("testinjection");
    CleanUnchangedFrom("testinjection", 17);
  }

  /** No pass can match in the "LDAP injection" case. */
  lemma LdapInjectionIdle(s: string)
    requires Avoids(s, "\n\0$`.ce <")
    ensures SanitizeFrom(s, 0) == SanitizeFrom(s, 18)
  {
    assert IdleBetween(s, 18, 18);
    MissesAt(InputPatterns[17], s, 1);
    assert IdleBetween(s, 17, 18);
    MissesAt(InputPatterns[16], s, 0);
    assert IdleBetween(s, 16, 18);
    MissesAt(InputPatterns[15], s, 0);
    assert IdleBetween(s, 15, 18);
    MissesAt(InputPatterns[14], s, 0);
    assert IdleBetween(s, 14, 18);
    MissesAt(InputPatterns[13], s, 0);
    assert IdleBetween(s, 13, 18);
    MissesAt(InputPatterns[12], s, 0);
    assert IdleBetween(s, 12, 18);
    MissesAt(InputPatterns[11], s, 0);
    assert IdleBetween(s, 11, 18);
    MissesAt(InputPatterns[10], s, 1);
    assert IdleBetween(s, 10, 18);
    MissesAt(InputPatterns[9], s, 5);
    assert IdleBetween(s, 9, 18);
    MissesAt(InputPatterns[8], s, 1);
    assert IdleBetween(s, 8, 18);
    MissesAt(InputPatterns[7], s, 6);
    assert IdleBetween(s, 7, 18);
    MissesAt(InputPatterns[6], s, 6);
    assert IdleBetween(s, 6, 18);
    MissesAt(InputPatterns[5], s, 6);
    assert IdleBetween(s, 5, 18);
    MissesAt(InputPatterns[4], s, 4);
    assert IdleBetween(s, 4, 18);
    MissesAt(InputPatterns[3], s, 5);
    assert IdleBetween(s, 3, 18);
    MissesAt(InputPatterns[2], s, 0);
    assert IdleBetween(s, 2, 18);
    MissesAt(InputPatterns[1], s, 0);
    assert IdleBetween(s, 1, 18);
    MissesAt(InputPatterns[0], s, 0);
    assert IdleBetween(s, 0, 18);
    IdleBetweenSkips(s, 0, 18);
  }

  lemma LdapInjectionShape()
    ensures "admin)(|(password=*))" == "admin)(|(" + "password=*))"
  {
  }

  lemma LdapInjectionPieces()
    ensures Avoids("admin)(|(", "\n\0$`.ce <") && Avoids("password=*))", "\n\0$`.ce <")
  {
  }

  lemma LdapInjectionCase()
    ensures Sanitized("admin)(|(password=*))") == "admin)(|(password=*))"
    ensures Clean("admin)(|(password=*))")
  {
    LdapInjectionShape();
    LdapInjectionPieces();
    AvoidsAppend("admin)(|(", "password=*))", "\n\0$`.ce <");
    LdapInjectionIdle("admin)(|(password=*))");
    SanitizedUnchangedIff("admin)(|(password=*))");
  }

  /** The passes after the one over "../" cannot match in the "XML injection" case. */
  lemma XmlInjectionLateIdle(s: string)
    requires Avoids(s, "R$|\0\n(A\\`gj")
    ensures SanitizeFrom(s, 12) == SanitizeFrom(s, 18)
  {
    assert IdleBetween(s, 18, 18);
    MissesAt(InputPatterns[17], s, 1);
    assert IdleBetween(s, 17, 18);
    MissesAt(InputPatterns[16], s, 0);
    assert IdleBetween(s, 16, 18);
    MissesAt(InputPatterns[15], s, 0);
    assert IdleBetween(s, 15, 18);
    MissesAt(InputPatterns[14], s, 0);
    assert IdleBetween(s, 14, 18);
    MissesAt(InputPatterns[13], s, 0);
    assert IdleBetween(s, 13, 18);
    MissesAt(InputPatterns[12], s, 2);
    assert IdleBetween(s, 12, 18);
    IdleBetweenSkips(s, 12, 18);
  }

  /** The passes between the one over "</script>" and the one over "../" cannot match in the "XML injection" case. */
  lemma XmlInjectionMiddleIdle(s: string)
    requires Avoids(s, "R$|\0\n(A\\`gj")
    ensures SanitizeFrom(s, 2) == SanitizeFrom(s, 11)
  {
    assert IdleBetween(s, 11, 11);
    MissesAt(InputPatterns[10], s, 4);
    assert IdleBetween(s, 10, 11);
    MissesAt(InputPatterns[9], s, 7);
    assert IdleBetween(s, 9, 11);
    MissesAt(InputPatterns[8], s, 4);
    assert IdleBetween(s, 8, 11);
    MissesAt(InputPatterns[7], s, 3);
    assert IdleBetween(s, 7, 11);
    MissesAt(InputPatterns[6], s, 4);
    assert IdleBetween(s, 6, 11);
    MissesAt(InputPatterns[5], s, 8);
    assert IdleBetween(s, 5, 11);
    MissesAt(InputPatterns[4], s, 1);
    assert IdleBetween(s, 4, 11);
    MissesAt(InputPatterns[3], s, 0);
    assert IdleBetween(s, 3, 11);
    MissesAt(InputPatterns[2], s, 3);
    assert IdleBetween(s, 2, 11);
    IdleBetweenSkips(s, 2, 11);
  }

  // The "XML injection" input, in pieces: every '<' in it opens "<?" or "<!",
  // and its only '.' is followed by a digit.
  const XmlPrologStart: string := "<?xml version=\"1"
  const XmlPrologEnd: string := ".0\"?>"
  const XmlDoctype: string := "<!DOCTYPE foo ["
  const XmlEntity: string := "<!ENTITY xxe SYSTEM "
  const XmlSystemScheme: string := "\"file:///"
  const XmlSystemPath: string := "etc/passwd\">]>"

  const XmlInjection: string := XmlPrologStart + (XmlPrologEnd + (XmlDoctype + (XmlEntity + (XmlSystemScheme + XmlSystemPath))))

  /** A pass over `p` keeps the XML text when it keeps each of its pieces. */
  lemma XmlInjectionKept(p: string)
    requires |p| > 0
    requires Inert(XmlPrologStart, p)
    requires Inert(XmlPrologEnd, p)
    requires Inert(XmlDoctype, p)
    requires Inert(XmlEntity, p)
    requires Inert(XmlSystemScheme, p)
    requires Inert(XmlSystemPath, p)
    ensures RemoveAll(XmlInjection, p) == XmlInjection
  {
    InertKept(XmlSystemPath, "", p);
    assert XmlSystemPath + "" == XmlSystemPath;
    InertKept(XmlSystemScheme, XmlSystemPath, p);
    InertKept(XmlEntity, XmlSystemScheme + XmlSystemPath, p);
    InertKept(XmlDoctype, XmlEntity + (XmlSystemScheme + XmlSystemPath), p);
    InertKept(XmlPrologEnd, XmlDoctype + (XmlEntity + (XmlSystemScheme + XmlSystemPath)), p);
    InertKept(XmlPrologStart, XmlPrologEnd + (XmlDoctype + (XmlEntity + (XmlSystemScheme + XmlSystemPath))), p);
  }

  lemma XmlInjectionInertOpening()
    ensures Inert(XmlPrologStart, "<script>") && Inert(XmlPrologEnd, "<script>") && Inert(XmlDoctype, "<script>") && Inert(XmlEntity, "<script>") && Inert(XmlSystemScheme, "<script>") && Inert(XmlSystemPath, "<script>")
  {
  }

  lemma XmlInjectionInertClosing()
    ensures Inert(XmlPrologStart, "</script>") && Inert(XmlPrologEnd, "</script>") && Inert(XmlDoctype, "</script>") && Inert(XmlEntity, "</script>") && Inert(XmlSystemScheme, "</script>") && Inert(XmlSystemPath, "</script>")
  {
  }

  lemma XmlInjectionInertDots()
    ensures Inert(XmlPrologStart, "../") && Inert(XmlPrologEnd, "../") && Inert(XmlDoctype, "../") && Inert(XmlEntity, "../") && Inert(XmlSystemScheme, "../") && Inert(XmlSystemPath, "../")
  {
  }

  lemma XmlPrologShape()
    ensures Avoids(XmlPrologStart, "R$|\0\n(A\\`gj") && Avoids(XmlPrologEnd, "R$|\0\n(A\\`gj")
  {
  }

  lemma XmlDoctypeShape()
    ensures Avoids(XmlDoctype, "R$|\0\n(A\\`gj")
  {
  }

  lemma XmlEntityShape()
    ensures Avoids(XmlEntity, "R$|\0\n(A\\`gj")
  {
  }

  lemma XmlSystemShape()
    ensures Avoids(XmlSystemScheme, "R$|\0\n(A\\`gj") && Avoids(XmlSystemPath, "R$|\0\n(A\\`gj")
  {
  }


  lemma XmlInjectionCase()
    ensures Sanitized(XmlInjection) == XmlInjection
    ensures Clean(XmlInjection)
  {
    XmlPrologShape();
    XmlDoctypeShape();
    XmlEntityShape();
    XmlSystemShape();
    AvoidsAppend(XmlSystemScheme, XmlSystemPath, "R$|\0\n(A\\`gj");
    AvoidsAppend(XmlEntity, XmlSystemScheme + XmlSystemPath, "R$|\0\n(A\\`gj");
    AvoidsAppend(XmlDoctype, XmlEntity + (XmlSystemScheme + XmlSystemPath), "R$|\0\n(A\\`gj");
    AvoidsAppend(XmlPrologEnd, XmlDoctype + (XmlEntity + (XmlSystemScheme + XmlSystemPath)), "R$|\0\n(A\\`gj");
    AvoidsAppend(XmlPrologStart, XmlPrologEnd + (XmlDoctype + (XmlEntity + (XmlSystemScheme + XmlSystemPath))), "R$|\0\n(A\\`gj");
    XmlInjectionLateIdle(XmlInjection);
    XmlInjectionMiddleIdle(XmlInjection);
    XmlInjectionInertOpening();
    XmlInjectionInertClosing();
    XmlInjectionInertDots();
    PatternsListed();
    XmlInjectionKept("../");
    PassRemoves(XmlInjection, 11, XmlInjection);
    XmlInjectionKept("</script>");
    PassRemoves(XmlInjection, 1, XmlInjection);
    XmlInjectionKept("<script>");
    PassRemoves(XmlInjection, 0, XmlInjection);
    SanitizedUnchangedIff(XmlInjection);
  }

  /** None of the fragments the input sanitization test looks for. */
  predicate FreeOfTestedFragments(s: string) {
    !Contains(s, "<script>") && !Contains(s, "DROP TABLE") && !Contains(s, "=cmd|")
    && !Contains(s, "../") && !Contains(s, "$(") && !Contains(s, "\0")
  }

  /** The six fragments are all patterns, so a clean text holds none of them. */
  lemma CleanIsFreeOfTestedFragments(s: string)
    requires Clean(s)
    ensures FreeOfTestedFragments(s)
  {
    PatternsListed();
    assert InputPatterns[0] in InputPatterns && InputPatterns[4] in InputPatterns;
    assert InputPatterns[8] in InputPatterns && InputPatterns[11] in InputPatterns;
    assert InputPatterns[13] in InputPatterns && InputPatterns[16] in InputPatterns;
  }

  /** The input sanitization test: for each of its eight inputs, the result of
      sanitizeInput holds none of the six fragments the test looks for. */
  lemma InputSanitizationCases()
    ensures FreeOfTestedFragments(Sanitized("<script>alert('xss')</script>"))
    ensures FreeOfTestedFragments(Sanitized("'; DROP TABLE events; --"))
    ensures FreeOfTestedFragments(Sanitized("=cmd|'/c calc'!A1"))
    ensures FreeOfTestedFragments(Sanitized("../../../etc/passwd"))
    ensures FreeOfTestedFragments(Sanitized("$(rm -rf /)"))
    ensures FreeOfTestedFragments(Sanitized("test\0injection"))
    ensures FreeOfTestedFragments(Sanitized("admin)(|(password=*))"))
    ensures FreeOfTestedFragments(Sanitized(XmlInjection))
  {
    HtmlTagsCase();
    CleanIsFreeOfTestedFragments("alert('xss')");
    SqlInjectionCase();
    CleanIsFreeOfTestedFragments("';  events; --");
    ExcelFormulaCase();
    CleanIsFreeOfTestedFragments("'/c calc'!A1");
    PathTraversalCase();
    CleanIsFreeOfTestedFragments("etc/passwd");
    CommandInjectionCase();
    CleanIsFreeOfTestedFragments("rm -rf /)");
    NullByteCase();
    CleanIsFreeOfTestedFragments("testinjection");
    LdapInjectionCase();
    CleanIsFreeOfTestedFragments("admin)(|(password=*))");
    XmlInjectionCase();
    CleanIsFreeOfTestedFragments(XmlInjection);
  }

  /** The passes after the first cannot match in "<script>". */
  lemma ScriptTagPassesAfterFirst(s: string)
    requires Avoids(s, "\n\0$`.m :/")
    ensures SanitizeFrom(s, 1) == SanitizeFrom(s, 18)
  {
    assert IdleBetween(s, 18, 18);
    MissesAt(InputPatterns[17], s, 1);
    assert IdleBetween(s, 17, 18);
    MissesAt(InputPatterns[16], s, 0);
    assert IdleBetween(s, 16, 18);
    MissesAt(InputPatterns[15], s, 0);
    assert IdleBetween(s, 15, 18);
    MissesAt(InputPatterns[14], s, 0);
    assert IdleBetween(s, 14, 18);
    MissesAt(InputPatterns[13], s, 0);
    assert IdleBetween(s, 13, 18);
    MissesAt(InputPatterns[12], s, 0);
    assert IdleBetween(s, 12, 18);
    MissesAt(InputPatterns[11], s, 0);
    assert IdleBetween(s, 11, 18);
    MissesAt(InputPatterns[10], s, 2);
    assert IdleBetween(s, 10, 18);
    MissesAt(InputPatterns[9], s, 6);
    assert IdleBetween(s, 9, 18);
    MissesAt(InputPatterns[8], s, 2);
    assert IdleBetween(s, 8, 18);
    MissesAt(InputPatterns[7], s, 6);
    assert IdleBetween(s, 7, 18);
    MissesAt(InputPatterns[6], s, 6);
    assert IdleBetween(s, 6, 18);
    MissesAt(InputPatterns[5], s, 6);
    assert IdleBetween(s, 5, 18);
    MissesAt(InputPatterns[4], s, 4);
    assert IdleBetween(s, 4, 18);
    MissesAt(InputPatterns[3], s, 10);
    assert IdleBetween(s, 3, 18);
    MissesAt(InputPatterns[2], s, 2);
    assert IdleBetween(s, 2, 18);
    MissesAt(InputPatterns[1], s, 1);
    assert IdleBetween(s, 1, 18);
    IdleBetweenSkips(s, 1, 18);
  }

  /** Deleting `p` from its own first character followed by `p` leaves that character. */
  lemma DoubledHeadPass(p: string, rest: string)
    requires |p| >= 2 && p[1] != p[0] && p[0] !in rest
    ensures RemoveAll([p[0]] + (p + rest), p) == [p[0]] + rest
  {
    var s := [p[0]] + (p + rest);
    MismatchNotPrefix(s, p, 1);
    RemoveAllKeepsHead(s, p);
    assert s[1..] == p + rest;
    RemoveAllAtFront(rest, p);
    RemoveAllUnchanged(rest, p, 0);
  }

  lemma NestedTagShape()
    ensures "<<script>script>" == ['<'] + ("<script>" + "script>")
    ensures HasPrefix("<script>"[0..], "<script>")
  {
  }

  lemma NestedTagPieces()
    ensures ['<'] + "script>" == "<script>" && Avoids("script>", "<")
    ensures Avoids("<script>", "\n\0$`.m :/")
  {
  }

  /** A single call can leave a pattern behind: deleting "<script>" from the
      middle of "<<script>script>" joins the two halves into a new "<script>",
      which sanitizeInput returns. */
  lemma SanitizeLeavesScriptTag()
    ensures Sanitized("<<script>script>") == "<script>"
    ensures !Clean(Sanitized("<<script>script>"))
  {
    NestedTagShape();
    NestedTagPieces();
    AvoidsNotIn("script>", "<", '<');
    DoubledHeadPass("<script>", "script>");
    PatternsListed();
    PassRemoves("<<script>script>", 0, "<script>");
    ScriptTagPassesAfterFirst("<script>");
    ContainsAt("<script>", "<script>", 0);
    assert InputPatterns[0] in InputPatterns;
  }

  /** A bare "<script>" is deleted outright. */
  lemma ScriptTagDeleted()
    ensures Sanitized("<script>") == ""
  {
    RemoveAllAtFront("", "<script>");
    assert "<script>" + "" == "<script>";
    PatternsListed();
    PassRemoves("<script>", 0, "");
    CleanWithoutPatternHeads("");
    CleanUnchangedFrom("", 1);
  }

  /** sanitizeInput repeated until its output no longer changes. */
  function Purged(s: string): (r: string)
    ensures |r| <= |s|
    decreases |s|
  {
    var t := Sanitized(s);
    if t == s then s else Purged(t)
  }

  /** Repeating the passes until nothing changes leaves no pattern behind. */
  lemma {:induction false} PurgedIsClean(s: string)
    ensures Clean(Purged(s))
    ensures Sanitized(Purged(s)) == Purged(s)
    decreases |s|
  {
    var t := Sanitized(s);
    if t == s {
      SanitizedUnchangedIff(s);
    } else {
      PurgedIsClean(t);
    }
  }

  /** Repeated sanitizing changes a text exactly when some pattern occurs in it. */
  lemma PurgedUnchangedIff(s: string)
    ensures Purged(s) == s <==> Clean(s)
  {
    SanitizedUnchangedIff(s);
    PurgedIsClean(s);
  }

  /** sanitizeInput applied until its output stops changing: unlike a single
      call, the result is always clean. */
  method SanitizeFully(input: string) returns (clean: string)
    ensures clean == Purged(input)
    ensures Clean(clean)
  {
    clean := input;
    var next := SanitizeInput(clean);
    while next != clean
      invariant next == Sanitized(clean)
      invariant Purged(clean) == Purged(input)
      decreases |clean|
    {
      clean := next;
      next := SanitizeInput(clean);
    }
    SanitizedUnchangedIff(clean);
  }

  /** Repeated sanitizing removes the nested tag that a single call leaves. */
  lemma NestedTagPurged()
    ensures Purged("<<script>script>") == ""
  {
    SanitizeLeavesScriptTag();
    ScriptTagDeleted();
    CleanWithoutPatternHeads("");
    CleanUnchangedFrom("", 0);
  }
}

=== FILE: wrappers.dfy ===
/** Failure-carrying values. A Go `error` is modelled by its message text,
    which is all the handlers ever use of it (`err.Error()`). */
module Wrappers {

  datatype Option<+T> = None | Some(value: T)

  /** The `(value, error)` pair a Go call returns: exactly one side is meaningful. */
  datatype Result<+T> = Ok(value: T) | Err(message: string)
}
